=== FILE: README.md ===
# Polynomial engine

A Dafny model of the single-variable polynomial engine in `Polynomials.cpp`.
A polynomial is a coefficient vector in which slot `i` holds the coefficient
of x^i, so `3x^4 + x^2 - 2x + 1` is `[1, -2, 1, 0, 3]`. The model has four
parts:

- **Algebra** (`Algebra`, `Calculus`): `polyMult`, `polyAdd`, `polySub` and
  `polyPow` over integer coefficients. `polyInteg`, `polyDeriv`, `polyAt`,
  `polyLine` and `polyEval` are over real coefficients.
- **Parser** (`Parser`): `polyParse` turns text such as `5x^4 - 3x^2 + 1`
  into a vector. It follows the source's four steps:
  1. drop spaces and rewrite each later `-` as `+-`, counting the terms;
  2. cut at the leftmost `+` while the count lasts;
  3. read each segment as a constant or an x-term;
  4. grow the vector and add each coefficient into its slot.
- **Formatter** (`Formatter`, `Written`): `polyReverse` writes a vector back
  in that notation.
- **Fraction search** (`Fractions`): `fraction` finds the least multiplier
  m for which abs(num)·m lies within 0.00001 above a whole number, capped at
  10000. The test is one-sided: a product just below a whole number does
  not settle.

`Numerals` models the decimal text the engine reads with `stof` and writes
with `to_string`. `RoundTrip` proves the header's promise that output comes
back "in the same form as the input": parsing what the formatter writes
gives the vector back. `Scenarios` applies the laws to the header's own
example and to the parser's corner cases.

Quirks of the code are modelled as written:
- The growth loop always pushes at least one zero. A term whose exponent
  equals the current length therefore lands one slot too high (`1 + 2x`
  gives `[1, 0, 2]`).
- The splitter finds the leftmost `+` on every pass.
- `polyPow(p, n)` returns `p` for every `n <= 1`, including 0.
- `polyDeriv` of a constant is the empty vector.
- A `-` after `^` is split off like any other, so `x^-2` parses as `x - 2`.
  The `abs` the source applies to the exponent never meets a negative value.
- `polyReverse` of an all-zero vector longer than one slot is the empty text.

In a few places the evidently intended behaviour differs from the code.
In each of them the model follows the code:
- One might expect the splitter to work from the rightmost `+`; it finds the
  leftmost.
- The expected `power(a, 0)` is `[1]`; the code returns `a`.
- One might expect `x^-2` to be a negative exponent, or an error; the code
  reads it as the two terms `x` and `-2`.
- One might expect the derivative of a constant to be `[0]`; the code gives
  the empty vector.
- There is no error for a letter other than `x`. Such text reaches `stof`.
  The model reports it as an invalid coefficient, or as an invalid exponent
  when the letter follows the `x` (`2xy` fails on `y`). The source's `stof`
  would instead read the numeric prefix, so `2y` gives 2.

## Model

| member | source | states |
|---|---|---|
| Algebra.Mult | Polynomials.cpp:86-101 | The product of vectors of lengths m and n has length m + n - 1. Slot k is the sum of a[i]·b[j] over all i + j == k. The branch that writes into a zero slot agrees with the branch that adds. |
| Algebra.ConvAtCommutes | Polynomials.cpp:88-99 | Every slot of a·b equals the same slot of b·a. |
| Algebra.ProductCommutes | Polynomials.cpp:86-101 | Multiplication is commutative. |
| Algebra.ProductUnit | Polynomials.cpp:86-101 | Multiplying by [1] leaves a vector unchanged. |
| Algebra.ProductLead | Polynomials.cpp:86-101 | The top slot of a product is the product of the two top slots, so no degree is lost. |
| Algebra.Power | Polynomials.cpp:134-141 | The reference power: p unchanged for every n <= 1, including 0, and length n·(len(p) - 1) + 1 above that. |
| Algebra.Pow | Polynomials.cpp:134-141 | The source's loop of power - 1 multiplications computes exactly the reference power. |
| Algebra.PowerLead | Polynomials.cpp:134-141 | The top slot of p^n is the top slot of p raised to n, or to 1 when n <= 1. |
| Algebra.Add | Polynomials.cpp:102-117 | The sum has the longer operand's length. Every slot is a[i] + b[i], with a slot missing from the shorter operand read as 0, whichever of the three branches applies. |
| Algebra.Sub | Polynomials.cpp:118-133 | The difference has the longer operand's length. Every slot is a[i] - b[i] under the same zero extension. |
| Algebra.SubUndoesAdd | Polynomials.cpp:102-133 | Subtracting b from a + b gives back every slot of a, zero-padded to the longer length. |
| Algebra.AddCommutes | Polynomials.cpp:102-117 | Addition is commutative. |
| Calculus.Integ | Polynomials.cpp:142-149 | The integral is one slot longer than its input, its constant of integration is 0, and slot i + 1 holds a[i] / (i + 1). |
| Calculus.Deriv | Polynomials.cpp:150-157 | The derivative of a non-empty vector is one slot shorter, so a constant gives the empty vector, and slot i holds a[i + 1]·(i + 1). |
| Calculus.DerivOfInteg | Polynomials.cpp:142-157 | Differentiating the integral of a gives back a. |
| Calculus.IntegOfDeriv | Polynomials.cpp:142-157 | Integrating the derivative of a gives back a with its constant slot set to 0. |
| Calculus.At | Polynomials.cpp:158-165 | polyAt's sum of p[i]·x^i equals Horner's rule evaluated from the top slot down. |
| Calculus.Line | Polynomials.cpp:166-177 | The tangent line has the curve's value at x. It has two slots exactly when the slope at x is non-zero, and then its x-slot is that slope. |
| Calculus.EvalSumSplits | Polynomials.cpp:280-283 | After n passes, polyEval's running value is the partial sum at b minus the partial sum at a. |
| Calculus.Eval | Polynomials.cpp:276-285 | polyEval(p, a, b) is the antiderivative's value at b minus its value at a. |
| Calculus.EvalEmptyInterval | Polynomials.cpp:276-285 | The integral over an empty interval [c, c] is 0. |
| Calculus.EvalSwapBounds | Polynomials.cpp:276-285 | Swapping the bounds negates the integral. |
| Fractions.Search | Polynomials.cpp:53-60 | The do-while stops at the first multiplier from its start that settles the value, or just past the cap 9999. No smaller multiplier settles. |
| Fractions.Numerator | Polynomials.cpp:62-64 | The numerator is the whole part of abs(num) times the multiplier, carrying num's sign. The truncating cast of the signed product agrees with this. |
| Fractions.Fraction | Polynomials.cpp:48-65 | The denominator lies in 1..10000. Below the cap it is the least multiplier m with frac(abs(num)·m) <= 0.00001. The numerator is the signed whole part of abs(num)·m. |
| Fractions.FractionText | Polynomials.cpp:61-64 | The text holds a `/` exactly when the denominator is above 1. The numerator's `to_string` comes first and reads back as the numerator; after the slash the rest reads back as the denominator. |
| Fractions.FractionOfInteger | Polynomials.cpp:48-65 | A whole number n comes back as n/1 and is shown as `to_string(n)` with no slash. |
| Fractions.FractionIsClose | Polynomials.cpp:53-64 | Below the cap, num/den misses num by at most 0.00001/den. |
| Numerals.ValueOfNatToString | Polynomials.cpp:319 | The digits `to_string` writes for n have the value n. |
| Numerals.ReadIntToString | Polynomials.cpp:261-262 | `stof` reads `to_string(i)` back as i, for negative i too. |
| Numerals.ReadInt | Polynomials.cpp:235-262 | `stof` reads a text exactly when it is digits after an optional `+` or `-`, with at least one digit. The value is negative only after a `-`. |
| Numerals.TrimPointZeros | Polynomials.cpp:305-314 | The trim loop removes the zeros after the point and the point itself, and never eats into the integer part. |
| Numerals.TrimFloatText | Polynomials.cpp:305-314 | The six-decimal text of a whole number, once trimmed, is its decimal digits, trailing zeros of the number kept (10 stays "10"). |
| Parser.RewriteCountsSigns | Polynomials.cpp:186-201 | Every `+` or `-` after position 0 becomes exactly one `+` in the rewritten text. |
| Parser.Normalize | Polynomials.cpp:183-201 | The rewritten text has no spaces. `constants` is one more than the `+` and `-` after position 0, so it equals the `+` count plus one unless the text starts with `+`. It always exceeds the separators after position 0, so the splitter never runs out. |
| Parser.Scan | Polynomials.cpp:205-209 | The right-to-left scan ends on the leftmost match, or keeps its start value when nothing matches. |
| Parser.SplitSegments | Polynomials.cpp:202-218 | Every segment but the last is non-empty and holds no `+`. |
| Parser.SplitJoins | Polynomials.cpp:202-218 | Whenever the count exceeds the separators, the segments joined with `+` give the text back. |
| Parser.SplitTerms | Polynomials.cpp:202-218 | The loop makes at most `constants` segments, one per pass. |
| Parser.SplitOfJoin | Polynomials.cpp:202-218 | Splitting a `+`-join of non-empty, `+`-free segments gives those segments back, in order. |
| Parser.ReadTerm | Polynomials.cpp:219-262 | A segment that reads is a constant exactly when it has no `x` or `X`. |
| Parser.Grow | Polynomials.cpp:263-267 | The do-while pushes at least one zero and stops at the exponent's length. Existing slots are kept. |
| Parser.Place | Polynomials.cpp:263-272 | Placing a term adds its coefficient into its landing slot and changes no other slot. The landing slot is 0 for a constant, and one too high for an exponent equal to the current length. |
| Parser.ParseSegs | Polynomials.cpp:219-273 | The term loop succeeds exactly when every segment reads, and never shortens the vector. |
| Parser.FoldTerms | Polynomials.cpp:219-273 | Placing the terms in order never shortens the vector, and the result has a slot for every term's degree. |
| Parser.Parse | Polynomials.cpp:178-275 | The empty text is [0], and every parsed vector is non-empty. |
| Parser.FoldWithinLength | Polynomials.cpp:263-272 | Terms that fit the vector each add their coefficient into the slot of their degree. |
| Parser.DescendingTerms | Polynomials.cpp:219-273 | When the first term has the highest degree, every coefficient accumulates into the slot equal to its exponent. |
| Parser.AscendingLandsHigh | Polynomials.cpp:178-275 | The text `1 + 2x` parses to [1, 0, 2]: the 2 lands in the slot of x^2. |
| Parser.ZeroExponentFirstLandsHigh | Polynomials.cpp:263-272 | A first term c·x^0 lands in slot 1, not slot 0. |
| Formatter.MagnitudeIsTrimmed | Polynomials.cpp:304-316 | The magnitude written is what the trim loop leaves of the six-decimal text of abs(c), or nothing for a unit coefficient of a power of x. |
| Formatter.MagnitudeOmitted | Polynomials.cpp:304 | A non-zero coefficient loses its magnitude exactly when it is ±1 on a power of x. |
| Formatter.Prefix | Polynomials.cpp:295-303 | Only the top slot can carry a bare `-`, and a positive top slot carries nothing. Lower slots carry ` + ` or ` - ` by the coefficient's sign, and a zero slot carries nothing. |
| Formatter.Suffix | Polynomials.cpp:317-324 | x^0 gets no suffix and x^1 a lone `x`. Above that, `x^` is followed by digits that `stof` reads back as the exponent. |
| Formatter.Piece | Polynomials.cpp:293-326 | A slot writes text exactly when it is non-zero. |
| Formatter.Emit | Polynomials.cpp:292-327 | The loop writes nothing exactly when every slot it visits is zero. |
| Formatter.Format | Polynomials.cpp:286-329 | [0] is written "0", and a longer all-zero vector is written "". A vector with a non-zero slot is written as non-empty text. |
| RoundTrip.LowerPiece | Polynomials.cpp:295-300 | After the parser's rewrite, a slot below the top becomes one `+` followed by its signed term text. |
| RoundTrip.EmitBelowTop | Polynomials.cpp:292-327 | After the rewrite, the text of the slots below the top is each term text preceded by `+`. |
| RoundTrip.NormalizeFormat | Polynomials.cpp:183-201 | Step 1 turns formatted text into its term texts joined by `+`, with `constants` equal to their number. |
| RoundTrip.SplitFormat | Polynomials.cpp:202-218 | Step 2 cuts formatted text into exactly the term texts, top slot first. |
| RoundTrip.ReadTermText | Polynomials.cpp:219-262 | Each written term reads back as its coefficient and exponent. |
| RoundTrip.ReadConstText | Polynomials.cpp:233-241 | A written constant reads back as that constant. |
| RoundTrip.CoefficientText | Polynomials.cpp:242-248 | The written sign and magnitude of an x-term read back as its coefficient, through the unit default when the magnitude is omitted. |
| RoundTrip.ExponentText | Polynomials.cpp:249-262 | The written exponent of x^i reads back as i. |
| RoundTrip.ReadPowerText | Polynomials.cpp:225-262 | Text made of an unmarked coefficient, `x`, then nothing or `^` and an unmarked exponent reads as the power those parts give. |
| RoundTrip.FoldSlots | Polynomials.cpp:263-272 | Placing the terms of all non-zero slots, top first, rebuilds the vector. |
| RoundTrip.ZeroRoundTrip | Polynomials.cpp:288-290 | The zero polynomial is written "0" and read back as [0]. |
| RoundTrip.FormatThenParse | Polynomials.cpp:15-21 | For every vector whose top slot is non-zero, and for [0], parsing the formatted text gives the vector back. |
| Scenarios.HeaderExampleFormat | Polynomials.cpp:5-9 | [1, -2, 1, 0, 3] is written "3x^4 + x^2 - 2x + 1". |
| Scenarios.HeaderExampleParse | Polynomials.cpp:7-9 | "3x^4 + x^2 - 2x + 1" parses to [1, -2, 1, 0, 3]. |
| Scenarios.BareX | Polynomials.cpp:242-257 | `x` reads as 1·x^1: an empty coefficient and an empty exponent are both 1. |
| Scenarios.MinusCapitalX | Polynomials.cpp:225-248 | `-X` reads as -1·x^1: capital `X` marks the variable, and a lone minus is -1. |
| Scenarios.EmptyExponent | Polynomials.cpp:249-257 | `x^` reads as x^1: nothing after `^` is an exponent of 1. |
| Scenarios.NegativeExponentSplits | Polynomials.cpp:186-218 | `x^-2` parses to [-2, 1]: the minus after `^` starts a new term, so the text means x - 2. |
| Scenarios.ConstantTerm | Polynomials.cpp:233-241 | `7` reads as a constant and accumulates into slot 0. |

## Left out

- The interactive shell (`ask`, `polyTest`, `menuTest`, `main`): console I/O and a menu loop with no algorithmic content.
- `math.h`, `main.cpp` and `InvSqrt.cpp` are not part of this model. They hold floating-point vector arithmetic, a driver and bit-reinterpretation tricks, and none of them is used by the engine.
- Floating point: coefficients are `int` for the parser, formatter, `polyMult`, `polyAdd`, `polySub` and `polyPow`, and `real` for the calculus operations and `fraction`. There is no rounding, and `pow` is exact.
- `stof` is restricted to optionally signed integer literals that make up the whole segment. The source also accepts decimals and ignores trailing text. Text that is not such a literal is a `Failure` result; the source would throw or read a prefix.
- `to_string` of a non-integer coefficient, and the trimming of its decimals, is not modelled. Coefficients are integers, and `MagnitudeIsTrimmed` covers the whole-number case.
- The out-of-range reads in `polyAdd` and `polySub` are modelled as zero extension rather than emulated. The empty input to `polyDeriv` is excluded by a precondition: its size computation underflows. `polyMult` of two empty vectors is excluded for the same reason.
- Fractions.Numerator: the numerator is the exact whole part of abs(num)·m as an unbounded integer. The source's `static_cast<int>` is undefined once that passes 2^31 - 1, as at the cap for any abs(num) above about 214748.36 (2^31 - 1 divided by 10000) that never settles; the model does not bound it.
- Fractions.Fraction: its numerator comes from `Numerator` and carries the same unbounded width.
- Parser.Place: exponents are unbounded naturals. The source's `static_cast<int>` of the exponent is undefined from 2^31 on, and so is a vector that large; the model places such terms as it places small ones.
- Parser.SplitTerms: its contract only bounds the number of segments by the count. What the segments are is stated by the `SplitSegments`, `SplitJoins` and `SplitOfJoin` lemmas.
- Fractions.FractionIsClose: it covers only denominators below the cap. At the cap the source gives no closeness guarantee, and neither does the model.
- Parser.Parse: its contract gives the empty case and a non-empty result. What it computes is stated by `FormatThenParse`, `DescendingTerms`, `AscendingLandsHigh` and the `Scenarios` lemmas.

=== FILE: algebra.dfy ===
/**
 * Integer polynomial algebra: `polyMult`, `polyAdd`, `polySub` and `polyPow`
 * of Polynomials.cpp, over integer coefficients.
 */
module Algebra {
  import opened Coefficients

  /** Σ over lo <= i < hi of a[i] * b[k - i], slots outside either vector reading as zero. */
  function ConvRange(a: seq<int>, b: seq<int>, k: int, lo: int, hi: int): int
    decreases hi - lo
  {
    if hi <= lo then 0 else ConvRange(a, b, k, lo, hi - 1) + Coef(a, hi - 1) * Coef(b, k - (hi - 1))
  }

  /** Slot k of the product: the sum of a[i] * b[j] over all i + j == k. */
  function ConvAt(a: seq<int>, b: seq<int>, k: int): int {
    ConvRange(a, b, k, 0, |a|)
  }

  /** The product as a value, for stating laws about repeated multiplication. */
  function Product(a: seq<int>, b: seq<int>): (r: seq<int>)
    requires |a| + |b| >= 1
    ensures |r| == |a| + |b| - 1
  {
    seq(|a| + |b| - 1, k => ConvAt(a, b, k))
  }

  /**
   * polyMult: every pair of slots adds its product into the slot of the sum
   * of their indices. Writing into a zero slot and adding to it agree.
   * Both operands empty would ask for a vector of length -1.
   */
  method Mult(a: seq<int>, b: seq<int>) returns (r: seq<int>)
    requires |a| + |b| >= 1
    ensures |r| == |a| + |b| - 1
    ensures forall k :: 0 <= k < |r| ==> r[k] == ConvAt(a, b, k)
  {
    r := seq(|a| + |b| - 1, _ => 0);
    var x1 := 0;
    while x1 < |a|
      invariant 0 <= x1 <= |a|
      invariant |r| == |a| + |b| - 1
      invariant forall k :: 0 <= k < |r| ==> r[k] == ConvRange(a, b, k, 0, x1)
    {
      var x2 := 0;
      while x2 < |b|
        invariant 0 <= x2 <= |b|
        invariant |r| == |a| + |b| - 1
        invariant forall k :: 0 <= k < |r| ==>
          r[k] == ConvRange(a, b, k, 0, x1) + (if x1 <= k < x1 + x2 then a[x1] * b[k - x1] else 0)
      {
        var term := a[x1] * b[x2];
        r := r[x1 + x2 := if r[x1 + x2] == 0 then term else r[x1 + x2] + term];
        x2 := x2 + 1;
      }
      x1 := x1 + 1;
    }
  }

  /** polyAdd's three branches for one slot. */
  function AddSlot(x: int, y: int): int {
    if x == 0 && y != 0 then y
    else if x != 0 && y == 0 then x
    else x + y
  }

  /** polySub's three branches for one slot. */
  function SubSlot(x: int, y: int): int {
    if x == 0 && y != 0 then -y
    else if x != 0 && y == 0 then x
    else x - y
  }

  /** polyAdd, with a slot missing from the shorter operand read as zero. */
  function Add(a: seq<int>, b: seq<int>): (r: seq<int>)
    ensures |r| == Max(|a|, |b|)
    ensures forall i :: 0 <= i < |r| ==> r[i] == Coef(a, i) + Coef(b, i)
  {
    seq(Max(|a|, |b|), i => AddSlot(Coef(a, i), Coef(b, i)))
  }

  /** polySub, with a slot missing from the shorter operand read as zero. */
  function Sub(a: seq<int>, b: seq<int>): (r: seq<int>)
    ensures |r| == Max(|a|, |b|)
    ensures forall i :: 0 <= i < |r| ==> r[i] == Coef(a, i) - Coef(b, i)
  {
    seq(Max(|a|, |b|), i => SubSlot(Coef(a, i), Coef(b, i)))
  }

  /**
   * Reference for polyPow: n - 1 multiplications by p. Any n <= 1, zero
   * included, leaves p unchanged.
   */
  function Power(p: seq<int>, n: int): (r: seq<int>)
    requires |p| >= 1 || n <= 1
    ensures n <= 1 ==> r == p
    ensures |p| >= 1 ==> |r| == Max(n, 1) * (|p| - 1) + 1
    decreases n
  {
    if n <= 1 then p else Product(Power(p, n - 1), p)
  }

  /** polyPow: the loop of the source, one Mult per pass. */
  method Pow(p: seq<int>, power: int) returns (r: seq<int>)
    requires |p| >= 1 || power <= 1
    ensures r == Power(p, power)
  {
    r := p;
    var i := 0;
    while i < power - 1
      invariant 0 <= i
      invariant power >= 1 ==> i <= power - 1
      invariant power <= 1 ==> i == 0
      invariant r == Power(p, i + 1)
    {
      assert |r| + |p| >= 1;
      r := Mult(r, p);
      i := i + 1;
      assert r == Power(p, i + 1);
    }
  }

  // ---- laws ----

  /** Summing only vanishing terms gives zero. */
  lemma {:induction false} ConvRangeZero(a: seq<int>, b: seq<int>, k: int, lo: int, hi: int)
    requires forall i :: lo <= i < hi ==> Coef(a, i) == 0 || Coef(b, k - i) == 0
    ensures ConvRange(a, b, k, lo, hi) == 0
    decreases hi - lo
  {
    if hi > lo {
      ConvRangeZero(a, b, k, lo, hi - 1);
    }
  }

  /** Extending the range over vanishing terms does not change the sum. */
  lemma {:induction false} ConvRangeExtend(a: seq<int>, b: seq<int>, k: int, lo: int, n: int, m: int)
    requires lo <= n <= m
    requires forall i :: n <= i < m ==> Coef(a, i) == 0 || Coef(b, k - i) == 0
    ensures ConvRange(a, b, k, lo, n) == ConvRange(a, b, k, lo, m)
    decreases m - n
  {
    if m > n {
      ConvRangeExtend(a, b, k, lo, n, m - 1);
    }
  }

  /** The range sum peeled at its low end. */
  lemma {:induction false} ConvRangeLow(a: seq<int>, b: seq<int>, k: int, lo: int, hi: int)
    requires lo < hi
    ensures ConvRange(a, b, k, lo, hi) == Coef(a, lo) * Coef(b, k - lo) + ConvRange(a, b, k, lo + 1, hi)
    decreases hi - lo
  {
    if hi - 1 > lo {
      ConvRangeLow(a, b, k, lo, hi - 1);
    }
  }

  /** Reindexing i to k - i swaps the roles of the operands. */
  lemma {:induction false} ConvRangeSwap(a: seq<int>, b: seq<int>, k: int, lo: int, hi: int)
    ensures ConvRange(a, b, k, lo, hi) == ConvRange(b, a, k, k + 1 - hi, k + 1 - lo)
    decreases hi - lo
  {
    if hi > lo {
      ConvRangeSwap(a, b, k, lo, hi - 1);
      ConvRangeLow(b, a, k, k + 1 - hi, k + 1 - lo);
      assert k - (k + 1 - hi) == hi - 1;
    }
  }

  /** Slot k of a product as a sum over 0 <= i <= k. */
  lemma ConvAtSquare(a: seq<int>, b: seq<int>, k: int)
    requires k >= 0
    ensures ConvAt(a, b, k) == ConvRange(a, b, k, 0, k + 1)
  {
    if |a| <= k + 1 {
      ConvRangeExtend(a, b, k, 0, |a|, k + 1);
    } else {
      ConvRangeExtend(a, b, k, 0, k + 1, |a|);
    }
  }

  /** Multiplication commutes: Mult(a, b) and Mult(b, a) agree slot by slot. */
  lemma ConvAtCommutes(a: seq<int>, b: seq<int>, k: int)
    ensures ConvAt(a, b, k) == ConvAt(b, a, k)
  {
    if k >= 0 {
      ConvAtSquare(a, b, k);
      ConvAtSquare(b, a, k);
      ConvRangeSwap(a, b, k, 0, k + 1);
    } else {
      ConvRangeZero(a, b, k, 0, |a|);
      ConvRangeZero(b, a, k, 0, |b|);
    }
  }

  lemma ProductCommutes(a: seq<int>, b: seq<int>)
    requires |a| + |b| >= 1
    ensures Product(a, b) == Product(b, a)
  {
    forall k | 0 <= k < |a| + |b| - 1
      ensures Product(a, b)[k] == Product(b, a)[k]
    {
      ConvAtCommutes(a, b, k);
    }
  }

  /** [1] is the unit of multiplication. */
  lemma ProductUnit(p: seq<int>)
    ensures Product([1], p) == p
  {
    forall k | 0 <= k < |p|
      ensures Product([1], p)[k] == p[k]
    {
      assert ConvAt([1], p, k) == ConvRange([1], p, k, 0, 0) + Coef([1], 0) * Coef(p, k);
    }
  }

  /** The top slot of a product is the product of the top slots: no degree is lost. */
  lemma ProductLead(a: seq<int>, b: seq<int>)
    requires |a| >= 1 && |b| >= 1
    ensures Product(a, b)[|a| + |b| - 2] == a[|a| - 1] * b[|b| - 1]
  {
    var k := |a| + |b| - 2;
    ConvRangeZero(a, b, k, 0, |a| - 1);
  }

  /** Raising to a power raises the top slot to that power. */
  lemma {:induction false} PowerLead(p: seq<int>, n: nat)
    requires |p| >= 1
    ensures Power(p, n)[|Power(p, n)| - 1] == IntPow(p[|p| - 1], if n <= 1 then 1 else n)
    decreases n
  {
    if n > 1 {
      PowerLead(p, n - 1);
      ProductLead(Power(p, n - 1), p);
    }
  }

  function IntPow(x: int, n: nat): int {
    if n == 0 then 1 else x * IntPow(x, n - 1)
  }

  /** Subtracting what was added restores every slot. */
  lemma SubUndoesAdd(a: seq<int>, b: seq<int>)
    ensures |Sub(Add(a, b), b)| == Max(|a|, |b|)
    ensures forall i :: 0 <= i < Max(|a|, |b|) ==> Sub(Add(a, b), b)[i] == Coef(a, i)
  {
  }

  lemma AddCommutes(a: seq<int>, b: seq<int>)
    ensures Add(a, b) == Add(b, a)
  {
  }
}

=== FILE: calculus.dfy ===
/**
 * Calculus over real coefficients: `polyInteg`, `polyDeriv`, `polyAt`,
 * `polyLine` and `polyEval` of Polynomials.cpp.
 */
module Calculus {

  /** x^n, as `pow(x, n)` for a whole exponent (with 0^0 == 1). */
  function RPow(x: real, n: nat): real {
    if n == 0 then 1.0 else x * RPow(x, n - 1)
  }

  /** polyInteg: the constant of integration is 0, and slot i moves to i + 1 divided by i + 1. */
  function Integ(a: seq<real>): (r: seq<real>)
    ensures |r| == |a| + 1
    ensures r[0] == 0.0
    ensures forall i :: 0 <= i < |a| ==> r[i + 1] == a[i] / (i + 1) as real
  {
    [0.0] + seq(|a|, i requires 0 <= i < |a| => a[i] / (i + 1) as real)
  }

  /**
   * polyDeriv: slot i + 1 moves to i multiplied by i + 1. A constant has
   * the empty vector as its derivative; an empty vector has none (the
   * source's length computation underflows).
   */
  function Deriv(a: seq<real>): (r: seq<real>)
    requires |a| >= 1
    ensures |r| == |a| - 1
    ensures forall i :: 0 <= i < |a| - 1 ==> r[i] == a[i + 1] * (i + 1) as real
  {
    seq(|a| - 1, i requires 0 <= i < |a| - 1 => a[i + 1] * (i + 1) as real)
  }

  /** Σ over i < n of p[i] * x^i: the first n passes of polyAt's loop. */
  function PowerSum(p: seq<real>, x: real, n: nat): real
    requires n <= |p|
  {
    if n == 0 then 0.0 else PowerSum(p, x, n - 1) + p[n - 1] * RPow(x, n - 1)
  }

  /** polyAt: the value of the polynomial at x, which Horner's rule also gives. */
  function At(p: seq<real>, x: real): (r: real)
    ensures r == Horner(p, x)
  {
    PowerSumIsHorner(p, x);
    PowerSum(p, x, |p|)
  }

  /** Horner's rule, an independent definition of the value at x. */
  function Horner(p: seq<real>, x: real): real {
    if |p| == 0 then 0.0 else p[0] + x * Horner(p[1..], x)
  }

  /**
   * polyLine: the tangent at x, as [y - m*x, m] when the slope m is not zero
   * and as the constant [y] when it is.
   */
  function Line(p: seq<real>, x: real): (r: seq<real>)
    requires |p| >= 1
    ensures At(r, x) == At(p, x)
    ensures 1 <= |r| <= 2
    ensures |r| == 2 <==> At(Deriv(p), x) != 0.0
    ensures |r| == 2 ==> r[1] == At(Deriv(p), x)
  {
    var m := At(Deriv(p), x);
    var y := At(p, x);
    LineValue(y, m, x);
    if m != 0.0 then [y - m * x, m] else [y]
  }

  /** Both shapes polyLine returns take the value y at x. */
  lemma LineValue(y: real, m: real, x: real)
    ensures At([y - m * x, m], x) == y
    ensures At([y], x) == y
  {
    var r := [y - m * x, m];
    assert PowerSum(r, x, 1) == PowerSum(r, x, 0) + r[0] * RPow(x, 0) == y - m * x;
    assert RPow(x, 1) == x * RPow(x, 0) == x;
    assert At(r, x) == PowerSum(r, x, 1) + r[1] * RPow(x, 1);
    assert At([y], x) == PowerSum([y], x, 0) + [y][0] * RPow(x, 0);
  }

  /** Σ over i < n of q[i] * b^i - q[i] * a^i: the first n passes of polyEval's loop. */
  function EvalSum(q: seq<real>, a: real, b: real, n: nat): real
    requires n <= |q|
  {
    if n == 0 then 0.0 else EvalSum(q, a, b, n - 1) + q[n - 1] * RPow(b, n - 1) - q[n - 1] * RPow(a, n - 1)
  }

  /** polyEval: the definite integral of p from a to b, as F(b) - F(a) for the antiderivative F. */
  function Eval(p: seq<real>, a: real, b: real): (r: real)
    ensures r == At(Integ(p), b) - At(Integ(p), a)
  {
    EvalSumSplits(Integ(p), a, b, |p| + 1);
    EvalSum(Integ(p), a, b, |p| + 1)
  }

  // ---- laws ----

  /** Differentiating an integral gives back the integrand. */
  lemma DerivOfInteg(a: seq<real>)
    ensures Deriv(Integ(a)) == a
  {
    var d := Deriv(Integ(a));
    forall i | 0 <= i < |a|
      ensures d[i] == a[i]
    {
      var n := (i + 1) as real;
      assert d[i] == (a[i] / n) * n;
    }
  }

  /** Integrating a derivative gives back the polynomial with its constant term set to 0. */
  lemma IntegOfDeriv(a: seq<real>)
    requires |a| >= 1
    ensures Integ(Deriv(a)) == [0.0] + a[1..]
  {
    var g := Integ(Deriv(a));
    forall i | 1 <= i < |a|
      ensures g[i] == a[i]
    {
      IntegOfDerivAt(a, i);
    }
  }

  /** Slot i >= 1 is multiplied by i and then divided by i. */
  lemma IntegOfDerivAt(a: seq<real>, i: nat)
    requires 1 <= i < |a|
    ensures Integ(Deriv(a))[i] == a[i]
  {
    var d := Deriv(a);
    var n := i as real;
    assert d[i - 1] == a[i] * n;
    assert Integ(d)[i] == d[i - 1] / n;
    Cancel(a[i], n, d[i - 1]);
  }

  lemma Cancel(y: real, n: real, product: real)
    requires n != 0.0 && product == y * n
    ensures product / n == y
  {
  }

  /** The power sum peeled at its low end: the step of Horner's rule. */
  lemma {:induction false} PowerSumFront(p: seq<real>, x: real, n: nat)
    requires 1 <= n <= |p|
    ensures PowerSum(p, x, n) == p[0] + x * PowerSum(p[1..], x, n - 1)
  {
    if n > 1 {
      PowerSumFront(p, x, n - 1);
      PowerSumStep(p, x, n);
    }
  }

  /** One more term of the power sum, given the peeled form for one term less. */
  lemma PowerSumStep(p: seq<real>, x: real, n: nat)
    requires 1 < n <= |p|
    requires PowerSum(p, x, n - 1) == p[0] + x * PowerSum(p[1..], x, n - 2)
    ensures PowerSum(p, x, n) == p[0] + x * PowerSum(p[1..], x, n - 1)
  {
    var q := p[1..];
    var t := p[n - 1];
    var sum := PowerSum(q, x, n - 2);
    var rest := RPow(x, n - 2);
    assert q[n - 2] == t;
    assert PowerSum(q, x, n - 1) == sum + t * rest;
    assert RPow(x, n - 1) == x * rest;
    Distribute(x, sum, t, rest);
  }

  lemma Distribute(x: real, sum: real, t: real, rest: real)
    ensures x * sum + t * (x * rest) == x * (sum + t * rest)
  {
  }

  /** polyAt's power sum and Horner's rule agree. */
  lemma {:induction false} PowerSumIsHorner(p: seq<real>, x: real)
    ensures PowerSum(p, x, |p|) == Horner(p, x)
    decreases |p|
  {
    if |p| > 0 {
      PowerSumFront(p, x, |p|);
      PowerSumIsHorner(p[1..], x);
    }
  }

  /** Each pass of polyEval's loop adds one term of F(b) - F(a). */
  lemma {:induction false} EvalSumSplits(q: seq<real>, a: real, b: real, n: nat)
    requires n <= |q|
    ensures EvalSum(q, a, b, n) == PowerSum(q, b, n) - PowerSum(q, a, n)
  {
    if n > 0 {
      EvalSumSplits(q, a, b, n - 1);
    }
  }

  /** An integral over an empty interval is zero. */
  lemma EvalEmptyInterval(p: seq<real>, c: real)
    ensures Eval(p, c, c) == 0.0
  {
  }

  /** Swapping the bounds negates the integral. */
  lemma EvalSwapBounds(p: seq<real>, a: real, b: real)
    ensures Eval(p, b, a) == -Eval(p, a, b)
  {
  }
}

=== FILE: coefficients.dfy ===
/**
 * Coefficient vectors: index i holds the coefficient of x^i. Slots past the
 * end of a vector read as zero.
 */
module Coefficients {

  function Max(a: int, b: int): int {
    if a >= b then a else b
  }

  function Abs(x: int): nat {
    if x < 0 then -x else x
  }

  /** The coefficient of x^i, zero outside the vector. */
  function Coef(v: seq<int>, i: int): int {
    if 0 <= i < |v| then v[i] else 0
  }
}

=== FILE: formatter.dfy ===
/**
 * `polyReverse` of Polynomials.cpp: a coefficient vector back to text in
 * the notation the parser reads, over integer coefficients.
 */
module Formatter {
  import opened Results
  import opened Numerals
  import opened Coefficients
  import opened Sequences

  /**
   * The coefficient's magnitude, left out for a unit coefficient of a power
   * of x. The source prints the magnitude as a float and trims the trailing
   * zeros and the point; MagnitudeIsTrimmed shows that gives these digits.
   */
  function Magnitude(c: int, i: nat): string {
    if i == 0 || Abs(c) != 1 then NatToString(Abs(c)) else ""
  }

  /** The magnitude is what the trim loop leaves of the float text of |c|. */
  lemma MagnitudeIsTrimmed(c: int, i: nat)
    ensures Magnitude(c, i) == (if i == 0 || Abs(c) != 1 then TrimFraction(FloatText(Abs(c))) else "")
  {
    TrimFloatText(Abs(c));
  }

  /** A non-zero coefficient loses its magnitude exactly when it is 1 or -1 on a power of x. */
  lemma MagnitudeOmitted(c: int, i: nat)
    requires c != 0
    ensures Magnitude(c, i) == "" <==> (i > 0 && (c == 1 || c == -1))
  {
  }

  /**
   * The power of x after the magnitude: nothing for x^0, a lone `x` for x^1,
   * and above that `x^` followed by digits that `stof` reads back as i.
   */
  function Suffix(i: nat): (r: string)
    ensures r == "" <==> i == 0
    ensures i >= 1 ==> r[0] == 'x' && (|r| == 1 <==> i == 1)
    ensures i >= 2 ==> |r| >= 3 && r[1] == '^' && ReadInt(r[2..]) == Some(i)
  {
    if i == 0 then ""
    else if i == 1 then "x"
    else
      var digits := NatToString(i);
      assert digits == IntToString(i);
      ReadIntToString(i);
      assert ("x^" + digits)[2..] == digits;
      "x^" + digits
  }

  /** What follows the sign: the magnitude, then the power of x. */
  function Body(c: int, i: nat): string {
    Magnitude(c, i) + Suffix(i)
  }

  /**
   * What the loop puts before the body of slot i: a separator ` + ` or ` - `
   * carrying the sign below the top slot, a bare `-` on a negative top
   * slot, and nothing on a positive top slot or a zero slot. At most one of
   * separator and bare minus is ever written.
   */
  function Prefix(v: seq<int>, i: nat): (r: string)
    requires i < |v|
    ensures v[i] == 0 ==> r == ""
    ensures v[i] != 0 && i == |v| - 1 ==> r == (if v[i] < 0 then "-" else "")
    ensures v[i] != 0 && i < |v| - 1 ==> r == (if v[i] > 0 then " + " else " - ")
  {
    var sep := if v[i] > 0 && i != |v| - 1 then " + " else if v[i] < 0 && i != |v| - 1 then " - " else "";
    var lead := if v[i] < 0 && i == |v| - 1 then "-" else "";
    EmptyJoins(sep);
    EmptyJoins(lead);
    sep + lead
  }

  /** The text for slot i: nothing for a zero slot, otherwise prefix and body. */
  function Piece(v: seq<int>, i: nat): (s: string)
    requires i < |v|
    ensures |s| == 0 <==> v[i] == 0
  {
    if v[i] == 0 then "" else Prefix(v, i) + Body(v[i], i)
  }

  /** The pieces of slots n - 1 down to 0, highest first. */
  function Emit(v: seq<int>, n: nat): (s: string)
    requires n <= |v|
    ensures |s| == 0 <==> forall k :: 0 <= k < n ==> v[k] == 0
  {
    if n == 0 then "" else Piece(v, n - 1) + Emit(v, n - 1)
  }

  /**
   * polyReverse: a one-slot zero vector is "0"; any other vector is its
   * pieces from the top slot down, so a longer all-zero vector is "".
   */
  function Format(v: seq<int>): (s: string)
    ensures (forall k :: 0 <= k < |v| ==> v[k] == 0) ==> s == (if |v| == 1 then "0" else "")
    ensures (exists k :: 0 <= k < |v| && v[k] != 0) ==> |s| > 0
  {
    if |v| == 1 && v[0] == 0 then "0" else Emit(v, |v|)
  }
}

=== FILE: fractions.dfy ===
/**
 * `fraction` of Polynomials.cpp: a bounded search for a denominator that
 * turns a definite-integral value into `n/m` text.
 */
module Fractions {
  import opened Results
  import opened Numerals

  /** A step counts as whole when its fractional part is at most this. */
  const Tolerance: real := 0.00001

  /** The search gives up once the multiplier passes this. */
  const Cap: int := 9999

  datatype Rational = Rational(num: int, den: int)

  function Sign(x: real): int {
    if x >= 0.0 then 1 else -1
  }

  function RAbs(x: real): real {
    if x >= 0.0 then x else -x
  }

  /** `static_cast<int>`: truncation toward zero. */
  function Trunc(x: real): int {
    if x >= 0.0 then x.Floor else -((-x).Floor)
  }

  /** The whole part of t * m: what `floor` leaves of the scaled value. */
  function WholePart(t: real, m: int): int {
    (t * m as real).Floor
  }

  /** t * m is within the tolerance above a whole number. */
  predicate Settled(t: real, m: int) {
    t * m as real - WholePart(t, m) as real <= Tolerance
  }

  /**
   * The do-while: try multipliers from `mult` upward, stopping at the first
   * one that settles, or just past the cap.
   */
  function Search(t: real, mult: int): (m: int)
    requires 1 <= mult <= Cap + 1
    ensures mult <= m <= Cap + 1
    ensures m <= Cap ==> Settled(t, m)
    ensures forall k :: mult <= k < m ==> !Settled(t, k)
    decreases Cap + 1 - mult
  {
    if mult > Cap then mult
    else if !Settled(t, mult) then Search(t, mult + 1)
    else mult
  }

  /** The numerator: num's magnitude scaled by `mult`, truncated, with num's sign. */
  function Numerator(num: real, mult: int): (n: int)
    requires mult >= 1
    ensures n == Sign(num) * WholePart(RAbs(num), mult)
  {
    var sign := Sign(num);
    var temp := num * sign as real;
    assert temp == RAbs(num);
    var modFin := temp * mult as real;
    ScaledNonNegative(temp, mult);
    TruncSigned(sign, modFin);
    Trunc(sign as real * modFin)
  }

  /**
   * fraction: the denominator is the least multiplier in 1..9999 that
   * settles |num|, or 10000 when none does; the numerator is the whole part
   * of |num| times it, with num's sign.
   */
  function Fraction(num: real): (r: Rational)
    ensures 1 <= r.den <= Cap + 1
    ensures r.den <= Cap ==> Settled(RAbs(num), r.den)
    ensures forall m :: 1 <= m < r.den ==> !Settled(RAbs(num), m)
    ensures r.num == Sign(num) * WholePart(RAbs(num), r.den)
  {
    var mult := Search(RAbs(num), 1);
    Rational(Numerator(num, mult), mult)
  }

  /**
   * The text the caller displays: `n` when the denominator is 1, `n/m`
   * otherwise. Both numbers read back through `stof`: the numerator from
   * the front, the denominator from after the slash.
   */
  function FractionText(num: real): (s: string)
    ensures '/' in s <==> Fraction(num).den > 1
    ensures var r := Fraction(num);
            var k := |IntToString(r.num)|;
            && k <= |s|
            && ReadInt(s[..k]) == Some(r.num)
            && (r.den == 1 ==> k == |s|)
            && (r.den > 1 ==> k < |s| && s[k] == '/' && ReadInt(s[k + 1..]) == Some(r.den))
  {
    var r := Fraction(num);
    var n := IntToString(r.num);
    ReadIntToString(r.num);
    if r.den > 1 then
      var d := NatToString(r.den);
      assert d == IntToString(r.den);
      ReadIntToString(r.den);
      var s := n + "/" + d;
      assert s[..|n|] == n && s[|n|] == '/' && s[|n| + 1..] == d;
      s
    else
      assert n[..|n|] == n;
      n
  }

  lemma ScaledNonNegative(t: real, m: int)
    requires t >= 0.0 && m >= 1
    ensures t * m as real >= 0.0
  {
  }

  /** Truncating a signed non-negative value keeps the sign on the whole part. */
  lemma TruncSigned(sign: int, y: real)
    requires y >= 0.0 && (sign == 1 || sign == -1)
    ensures Trunc(sign as real * y) == sign * y.Floor
  {
    if sign == -1 && y > 0.0 {
      assert sign as real * y == -y;
    }
  }

  // ---- laws ----

  /** A whole number comes back as itself over 1, shown without a slash. */
  lemma FractionOfInteger(n: int)
    ensures Fraction(n as real) == Rational(n, 1)
    ensures FractionText(n as real) == IntToString(n)
  {
    var k: int := if n >= 0 then n else -n;
    var t := RAbs(n as real);
    assert t == k as real;
    WholeSettles(k);
    assert Search(t, 1) == 1;
    var r := Fraction(n as real);
    assert r.den == 1;
    assert r.num == Sign(n as real) * k;
  }

  lemma WholeSettles(k: int)
    ensures WholePart(k as real, 1) == k
    ensures Settled(k as real, 1)
  {
    assert k as real * 1 as real == k as real;
  }

  /** Below the cap, num/den misses num by at most the tolerance over den. */
  lemma FractionIsClose(num: real)
    requires Fraction(num).den <= Cap
    ensures var r := Fraction(num);
      RAbs(num - r.num as real / r.den as real) <= Tolerance / r.den as real
  {
    var r := Fraction(num);
    SettledIsClose(num, r.den, r.num);
  }

  lemma SettledIsClose(num: real, m: int, n: int)
    requires m >= 1
    requires Settled(RAbs(num), m)
    requires n == Sign(num) * WholePart(RAbs(num), m)
    ensures RAbs(num - n as real / m as real) <= Tolerance / m as real
  {
    var d := m as real;
    var t := RAbs(num);
    var w := WholePart(t, m) as real;
    assert w <= t * d;
    DivideGap(t, w, d);
    var gap := t - w / d;
    if num >= 0.0 {
      assert n as real == w;
      assert num - n as real / d == gap;
    } else {
      assert n as real == -w;
      assert (-w) / d == -(w / d);
      assert num - n as real / d == -gap;
    }
  }

  lemma DivideGap(t: real, w: real, d: real)
    requires d > 0.0
    requires 0.0 <= t * d - w <= Tolerance
    ensures 0.0 <= t - w / d <= Tolerance / d
  {
    assert t - w / d == (t * d - w) / d;
  }
}

=== FILE: numerals.dfy ===
/** Decimal numerals: the text the engine reads with `stof` and writes with `to_string`. */
module Numerals {
  import opened Results

  predicate IsDigit(c: char) {
    '0' <= c <= '9'
  }

  predicate AllDigits(s: string) {
    forall k :: 0 <= k < |s| ==> IsDigit(s[k])
  }

  function DigitChar(d: nat): (c: char)
    requires d < 10
    ensures IsDigit(c)
  {
    ('0' as int + d) as char
  }

  function DigitValue(c: char): (d: nat)
    requires IsDigit(c)
    ensures d < 10 && DigitChar(d) == c
  {
    c as int - '0' as int
  }

  /** Decimal digits of `n`, most significant first, without leading zeros. */
  function NatToString(n: nat): (s: string)
    ensures |s| >= 1 && AllDigits(s)
    ensures |s| > 1 ==> s[0] != '0'
  {
    if n < 10 then [DigitChar(n)] else NatToString(n / 10) + [DigitChar(n % 10)]
  }

  /** `to_string` of an int: a minus sign for negatives, then the digits of the magnitude. */
  function IntToString(i: int): (s: string)
    ensures |s| >= 1
    ensures forall k :: 0 <= k < |s| ==> IsDigit(s[k]) || (k == 0 && s[k] == '-' && i < 0)
  {
    if i < 0 then "-" + NatToString(-i) else NatToString(i)
  }

  /** The value of a run of decimal digits. */
  function DigitsValue(s: string): nat
    requires AllDigits(s)
  {
    if |s| == 0 then 0 else DigitsValue(s[..|s| - 1]) * 10 + DigitValue(s[|s| - 1])
  }

  /**
   * `stof` restricted to integer literals: an optional `+` or `-`, then at
   * least one digit, and nothing else.
   */
  function ReadInt(s: string): (r: Option<int>)
    ensures r.Some? <==> |s| >= 1 && AllDigits(s[1..]) && (IsDigit(s[0]) || (|s| >= 2 && (s[0] == '-' || s[0] == '+')))
    ensures r.Some? && s[0] == '-' ==> r.value <= 0
    ensures r.Some? && s[0] != '-' ==> r.value >= 0
  {
    if |s| >= 2 && s[0] == '-' && AllDigits(s[1..]) then Some(-(DigitsValue(s[1..]) as int))
    else if |s| >= 2 && s[0] == '+' && AllDigits(s[1..]) then Some(DigitsValue(s[1..]))
    else if |s| >= 1 && AllDigits(s) then Some(DigitsValue(s))
    else None
  }

  /** `to_string` of a float holding the whole number `n`: six decimals. */
  function FloatText(n: nat): string {
    NatToString(n) + ".000000"
  }

  /**
   * The trimming loop of the formatter: drop trailing `0`s until a `.` is
   * reached, then drop the `.` and stop.
   */
  function TrimFraction(s: string): string
    decreases |s|
  {
    if |s| == 0 then s
    else if s[|s| - 1] == '.' then s[..|s| - 1]
    else if s[|s| - 1] == '0' then TrimFraction(s[..|s| - 1])
    else s
  }

  function Zeros(k: nat): (z: string)
    ensures |z| == k
    ensures forall j :: 0 <= j < k ==> z[j] == '0'
  {
    if k == 0 then "" else Zeros(k - 1) + "0"
  }

  /** Reading back the digits of `n` yields `n`. */
  lemma {:induction false} ValueOfNatToString(n: nat)
    ensures DigitsValue(NatToString(n)) == n
  {
    var s := NatToString(n);
    if n >= 10 {
      assert s[..|s| - 1] == NatToString(n / 10);
      ValueOfNatToString(n / 10);
    }
  }

  /** `stof` reads `to_string(i)` back as `i`. */
  lemma ReadIntToString(i: int)
    ensures ReadInt(IntToString(i)) == Some(i)
  {
    var d := NatToString(if i < 0 then -i else i);
    ValueOfNatToString(if i < 0 then -i else i);
    if i < 0 {
      assert IntToString(i)[1..] == d;
    }
  }

  /** Trimming never eats into the integer part: only the zeros after the point and the point go. */
  lemma {:induction false} TrimPointZeros(d: string, k: nat)
    ensures TrimFraction(d + "." + Zeros(k)) == d
  {
    var s := d + "." + Zeros(k);
    if k == 0 {
      assert s[..|s| - 1] == d;
    } else {
      assert s[|s| - 1] == '0';
      assert s[..|s| - 1] == d + "." + Zeros(k - 1);
      TrimPointZeros(d, k - 1);
    }
  }

  /** The trimmed float text of a whole number is its decimal digits, trailing zeros of the number kept. */
  lemma TrimFloatText(n: nat)
    ensures TrimFraction(FloatText(n)) == NatToString(n)
  {
    assert ".000000" == "." + Zeros(6);
    assert FloatText(n) == NatToString(n) + "." + Zeros(6);
    TrimPointZeros(NatToString(n), 6);
  }
}

=== FILE: parser.dfy ===
/**
 * `polyParse` of Polynomials.cpp: text such as `5x^4 - 3x^2 + 1` to a
 * coefficient vector, over integer coefficients.
 */
module Parser {
  import opened Sequences
  import opened Results
  import opened Numerals
  import opened Coefficients

  /** One additive term: a constant, or a coefficient of x raised to an exponent. */
  datatype Term = Const(coef: int) | Power(coef: int, exp: nat)

  /** The text `stof` could not read, as coefficient or as exponent. */
  datatype ParseError = InvalidCoefficient(text: string) | InvalidExponent(text: string)

  /** The power of x a term stands for. */
  function Degree(t: Term): nat {
    match t
    case Const(_) => 0
    case Power(_, e) => e
  }

  function Count(s: string, c: char): nat {
    if |s| == 0 then 0 else (if s[0] == c then 1 else 0) + Count(s[1..], c)
  }

  /** The `+` signs at positions after the first: the places the splitter can cut. */
  function Separators(s: string): nat {
    if |s| == 0 then 0 else Count(s[1..], '+')
  }

  /** How many `+` and `-` a text holds. */
  function Signs(s: string): nat {
    if |s| == 0 then 0 else (if s[0] == '+' || s[0] == '-' then 1 else 0) + Signs(s[1..])
  }

  // ---- step 1: drop spaces, open every later `-` as `+-`, count the terms ----

  /** One character after position 0: a space vanishes and a minus becomes `+-`. */
  function Rewrite(c: char): string {
    if c == ' ' then "" else if c == '-' then "+-" else [c]
  }

  /** Rewriting leaves no space. */
  function RewriteAll(s: string): (r: string)
    ensures ' ' !in r
  {
    if |s| == 0 then "" else Rewrite(s[0]) + RewriteAll(s[1..])
  }

  /** Rewriting turns every sign into exactly one `+`. */
  lemma {:induction false} RewriteCountsSigns(s: string)
    ensures Count(RewriteAll(s), '+') == Signs(s)
    decreases |s|
  {
    if |s| > 0 {
      RewriteCountsSigns(s[1..]);
      assert Count("+-", '+') == 1;
      CountConcat(Rewrite(s[0]), RewriteAll(s[1..]), '+');
    }
  }

  /**
   * The first loop of polyParse: the character at position 0 is kept as it
   * is (unless a space), the rest rewritten; `constants` is one more than
   * the signs after position 0.
   */
  function Normalize(text: string): (r: (string, nat))
    requires |text| >= 1
    ensures ' ' !in r.0
    ensures Count(r.0, '+') == r.1 - 1 + (if text[0] == '+' then 1 else 0)
    ensures r.1 > Separators(r.0)
  {
    var head := if text[0] == ' ' then "" else [text[0]];
    var txt := head + RewriteAll(text[1..]);
    CountConcat(head, RewriteAll(text[1..]), '+');
    RewriteCountsSigns(text[1..]);
    CountFirst(txt);
    (txt, 1 + Signs(text[1..]))
  }

  // ---- step 2: cut at the leftmost `+` while the budget lasts ----

  /** What a scan looks for: the `+` between terms, the variable, or the `^` before an exponent. */
  datatype Mark = Plus | Variable | Caret

  /** The variable is matched in either case, as the source does through `tolower`. */
  predicate Marks(m: Mark, c: char) {
    match m
    case Plus => c == '+'
    case Variable => c == 'x' || c == 'X'
    case Caret => c == '^'
  }

  /**
   * The source's right-to-left scan over s[..j]: every match overwrites the
   * remembered index, so the scan ends on the leftmost match, or on `acc`
   * when there is none.
   */
  function Scan(s: string, j: nat, acc: int, m: Mark): (r: int)
    requires j <= |s|
    ensures || (r == acc && forall k :: 0 <= k < j ==> !Marks(m, s[k]))
            || (0 <= r < j && Marks(m, s[r]) && forall k :: 0 <= k < r ==> !Marks(m, s[k]))
    decreases j
  {
    if j == 0 then acc else Scan(s, j - 1, if Marks(m, s[j - 1]) then j - 1 else acc, m)
  }

  /** Segments joined back with `+`. */
  function PlusJoin(ts: seq<string>): string {
    if |ts| == 0 then "" else ts[0] + PlusEach(ts[1..])
  }

  /** Each segment preceded by `+`. */
  function PlusEach(ts: seq<string>): string {
    if |ts| == 0 then "" else "+" + ts[0] + PlusEach(ts[1..])
  }

  /**
   * The splitting loop: at most `budget` passes, each cutting off the text
   * before the leftmost `+`; a pass that finds none, or finds it at position
   * 0, keeps the whole rest as the last segment.
   */
  function SplitTerms(txt: string, budget: nat): (r: seq<string>)
    ensures |r| <= budget
    decreases budget
  {
    if budget == 0 then []
    else
      var index := Scan(txt, |txt|, 0, Plus);
      if index > 0 then [txt[..index]] + SplitTerms(txt[index + 1..], budget - 1)
      else [txt]
  }

  // ---- step 3: read each segment as a term ----

  /** An empty text stands for 1, a lone minus for -1. */
  function UnitDefault(s: string): string {
    if s == "" then "1" else if s == "-" then "-1" else s
  }

  /**
   * One segment: without an `x` or `X` it is a constant; otherwise the text
   * before the leftmost `x` is the coefficient and the text after the
   * leftmost `^` (after the `x` when there is no `^`) is the exponent, taken
   * through `abs`. Inside polyParse no exponent text starts with `-`: step 1
   * has already split every later `-` off as a term of its own.
   */
  function ReadTerm(seg: string): (r: Result<Term, ParseError>)
    ensures r.Success? ==> (r.value.Const? <==> forall k :: 0 <= k < |seg| ==> !Marks(Variable, seg[k]))
  {
    var ix := Scan(seg, |seg|, -1, Variable);
    var ir := Scan(seg, |seg|, -1, Caret);
    if ix < 0 then
      match ReadInt(seg)
      case Some(c) => Success(Const(c))
      case None => Failure(InvalidCoefficient(seg))
    else
      var cs := UnitDefault(seg[..ix]);
      var ps := UnitDefault(if ir < 0 then seg[ix + 1..] else seg[ir + 1..]);
      match ReadInt(cs)
      case None => Failure(InvalidCoefficient(cs))
      case Some(c) =>
        match ReadInt(ps)
        case None => Failure(InvalidExponent(ps))
        case Some(e) => Success(Power(c, Abs(e)))
  }

  // ---- step 4: place each term's coefficient into the vector ----

  /**
   * The do-while that widens the vector: it pushes one zero before testing,
   * then more until the length reaches `e`.
   */
  function Grow(poly: seq<int>, e: nat): (r: seq<int>)
    ensures |r| == Max(|poly| + 1, e)
    ensures forall k :: 0 <= k < |r| ==> r[k] == Coef(poly, k)
    decreases e - |poly|
  {
    var p := poly + [0];
    if |p| < e then Grow(p, e) else p
  }

  /**
   * The slot a term's coefficient lands in: its degree, except that an x-term
   * whose exponent equals the current length lands one slot higher, because
   * the widening loop always pushes at least one zero.
   */
  function Landing(poly: seq<int>, t: Term): nat {
    match t
    case Const(_) => 0
    case Power(_, e) => if e == |poly| then e + 1 else e
  }

  /** One term into the vector: its landing slot gains the coefficient and nothing else changes. */
  function Place(poly: seq<int>, t: Term): (r: seq<int>)
    ensures |r| == Max(|poly|, Landing(poly, t) + 1)
    ensures forall k :: 0 <= k < |r| ==> r[k] == Coef(poly, k) + (if k == Landing(poly, t) then t.coef else 0)
  {
    match t
    case Const(c) => if |poly| < 1 then poly + [c] else poly[0 := poly[0] + c]
    case Power(c, e) => if |poly| < e + 1 then Grow(poly, e) + [c] else poly[e := poly[e] + c]
  }

  /** The terms placed in order: the vector never shrinks and grows to hold every term's degree. */
  function FoldTerms(poly: seq<int>, ts: seq<Term>): (r: seq<int>)
    ensures |r| >= |poly|
    ensures forall k :: 0 <= k < |ts| ==> Degree(ts[k]) < |r|
    decreases |ts|
  {
    if |ts| == 0 then poly
    else
      assert forall k :: 1 <= k < |ts| ==> ts[k] == ts[1..][k - 1];
      FoldTerms(Place(poly, ts[0]), ts[1..])
  }

  /**
   * The term loop: segments in order, each read and placed; the first
   * segment that does not read stops the parse with its error.
   */
  function ParseSegs(segs: seq<string>, poly: seq<int>): (r: Result<seq<int>, ParseError>)
    ensures r.Success? <==> forall k :: 0 <= k < |segs| ==> ReadTerm(segs[k]).Success?
    ensures r.Success? ==> |r.value| >= |poly| && (|segs| > 0 ==> |r.value| >= 1)
    decreases |segs|
  {
    if |segs| == 0 then Success(poly)
    else
      match ReadTerm(segs[0])
      case Failure(e) => Failure(e)
      case Success(t) =>
        var r := ParseSegs(segs[1..], Place(poly, t));
        assert forall k :: 1 <= k < |segs| ==> segs[k] == segs[1..][k - 1];
        r
  }

  /** polyParse. The empty text is the zero polynomial [0]. */
  function Parse(text: string): (r: Result<seq<int>, ParseError>)
    ensures text == "" ==> r == Success([0])
    ensures r.Success? ==> |r.value| >= 1
  {
    if |text| == 0 then Success([0])
    else
      var (txt, constants) := Normalize(text);
      ParseSegs(SplitTerms(txt, constants), [])
  }

  // ---- laws ----

  lemma {:induction false} CountConcat(a: string, b: string, c: char)
    ensures Count(a + b, c) == Count(a, c) + Count(b, c)
    decreases |a|
  {
    if |a| > 0 {
      assert (a + b)[1..] == a[1..] + b;
      CountConcat(a[1..], b, c);
    } else {
      assert a + b == b;
    }
  }

  lemma CountFirst(s: string)
    ensures |s| > 0 ==> Count(s, '+') == (if s[0] == '+' then 1 else 0) + Separators(s)
  {
  }

  lemma SeparatorsAtMostCount(s: string)
    ensures Separators(s) <= Count(s, '+')
  {
  }

  /** The sum of the coefficients of the terms of degree k. */
  function SumAt(ts: seq<Term>, k: int): int
    decreases |ts|
  {
    if |ts| == 0 then 0 else (if Degree(ts[0]) == k then ts[0].coef else 0) + SumAt(ts[1..], k)
  }

  /** Terms that all fit the vector each add their coefficient into the slot of their degree. */
  lemma {:induction false} FoldWithinLength(poly: seq<int>, ts: seq<Term>)
    requires forall k :: 0 <= k < |ts| ==> Degree(ts[k]) < |poly|
    ensures |FoldTerms(poly, ts)| == |poly|
    ensures forall k :: 0 <= k < |poly| ==> FoldTerms(poly, ts)[k] == poly[k] + SumAt(ts, k)
    decreases |ts|
  {
    if |ts| > 0 {
      var p := Place(poly, ts[0]);
      assert Landing(poly, ts[0]) == Degree(ts[0]);
      assert forall k :: 0 <= k < |ts| - 1 ==> ts[1..][k] == ts[k + 1];
      FoldWithinLength(p, ts[1..]);
    }
  }

  /**
   * Descending input: when the first term has the highest degree (and is a
   * constant or an x-term of exponent at least 1), every term's coefficient
   * accumulates into the slot equal to its degree.
   */
  lemma DescendingTerms(ts: seq<Term>)
    requires |ts| >= 1
    requires ts[0].Power? ==> ts[0].exp >= 1
    requires forall k :: 0 <= k < |ts| ==> Degree(ts[k]) <= Degree(ts[0])
    ensures |FoldTerms([], ts)| == Degree(ts[0]) + 1
    ensures forall k :: 0 <= k <= Degree(ts[0]) ==> FoldTerms([], ts)[k] == SumAt(ts, k)
  {
    var p := Place([], ts[0]);
    assert Landing([], ts[0]) == Degree(ts[0]);
    assert forall k :: 0 <= k < |ts| - 1 ==> ts[1..][k] == ts[k + 1];
    FoldWithinLength(p, ts[1..]);
  }

  /** Ascending input goes wrong: `1 + 2x` parses with the 2 in the slot of x^2. */
  lemma AscendingLandsHigh()
    ensures Parse("1 + 2x") == Success([1, 0, 2])
  {
    AscendingSplit();
    AscendingSegments();
    AscendingReads();
    assert Place([], Const(1)) == [1];
    assert Place([1], Power(2, 1)) == [1, 0, 2];
    assert ["1", "2x"][1..] == ["2x"];
    assert ParseSegs(["2x"], [1]) == ParseSegs([], [1, 0, 2]);
  }

  /** Step 1 on `1 + 2x`: the spaces go and two terms are counted. */
  lemma AscendingSplit()
    ensures Normalize("1 + 2x") == ("1+2x", 2)
  {
    AscendingRewrite();
    var text := "1 + 2x";
    assert text[1..] == " + 2x";
    assert text[0] == '1' && [text[0]] + "+2x" == "1+2x";
  }

  /** Step 2 cuts `1+2x` at its `+`. */
  lemma AscendingSegments()
    ensures SplitTerms("1+2x", 2) == ["1", "2x"]
  {
    assert Scan("1+2x", 4, 0, Plus) == 1;
    assert Scan("2x", 2, 0, Plus) == 0;
    assert "1+2x"[..1] == "1" && "1+2x"[2..] == "2x";
  }

  /** The rewrite of the text after position 0 drops the spaces and keeps the one sign. */
  lemma AscendingRewrite()
    ensures RewriteAll(" + 2x") == "+2x" && Signs(" + 2x") == 1
  {
    assert " + 2x"[1..] == "+ 2x" && "+ 2x"[1..] == " 2x" && " 2x"[1..] == "2x" && "2x"[1..] == "x" && "x"[1..] == "";
    assert RewriteAll("2x") == "2x" && Signs("2x") == 0;
    assert RewriteAll("+ 2x") == "+" + "2x";
  }

  /** Step 3 on the two segments: a constant 1 and the term 2x. */
  lemma AscendingReads()
    ensures ReadTerm("1") == Success(Const(1))
    ensures ReadTerm("2x") == Success(Power(2, 1))
  {
    assert Scan("1", 1, -1, Variable) == -1;
    assert Scan("2x", 2, -1, Variable) == 1;
    assert Scan("2x", 2, -1, Caret) == -1;
    assert "2x"[..1] == "2" && "2x"[2..] == "";
    assert ReadInt("2") == Some(2) && ReadInt("1") == Some(1);
  }

  /** A first term `5x^0` lands in the slot of x. */
  lemma ZeroExponentFirstLandsHigh(c: int)
    ensures Place([], Power(c, 0)) == [0, c]
  {
  }

  /** Cutting at the leftmost `+` leaves a non-empty, `+`-free head and fewer separators. */
  lemma CutAtPlus(txt: string, index: int)
    requires 0 < index < |txt|
    requires txt[index] == '+' && forall k :: 0 <= k < index ==> txt[k] != '+'
    ensures txt == txt[..index] + "+" + txt[index + 1..]
    ensures txt[..index] != "" && '+' !in txt[..index]
    ensures Separators(txt[index + 1..]) < Separators(txt)
  {
    var pre := txt[..index];
    var rest := txt[index + 1..];
    assert txt == pre + "+" + rest;
    assert txt[1..] == pre[1..] + ("+" + rest);
    CountConcat(pre[1..], "+" + rest, '+');
    assert ("+" + rest)[1..] == rest;
    SeparatorsAtMostCount(rest);
  }

  /** A non-empty list after a `+`: the `+` then the joined list. */
  lemma PlusEachJoin(ts: seq<string>)
    ensures |ts| >= 1 ==> PlusEach(ts) == "+" + PlusJoin(ts)
  {
  }

  /** The scan for `+` stops right after a non-empty, `+`-free first segment. */
  lemma ScanAfterSegment(a: string, rest: string)
    requires a != "" && '+' !in a
    ensures Scan(a + "+" + rest, |a + "+" + rest|, 0, Plus) == |a|
  {
    var txt := a + "+" + rest;
    assert txt[|a|] == '+';
    assert forall k :: 0 <= k < |a| ==> txt[k] == a[k];
  }

  /** A first segment cut off at its `+`: one pass of the splitting loop. */
  lemma SplitFirst(a: string, rest: string, budget: nat)
    requires a != "" && '+' !in a && budget >= 1
    ensures SplitTerms(a + "+" + rest, budget) == [a] + SplitTerms(rest, budget - 1)
  {
    var txt := a + "+" + rest;
    ScanAfterSegment(a, rest);
    assert txt[..|a|] == a;
    assert txt[|a| + 1..] == rest;
  }

  /** A text without `+` is the last segment, whole. */
  lemma SplitLast(a: string, budget: nat)
    requires '+' !in a && budget >= 1
    ensures SplitTerms(a, budget) == [a]
  {
    assert Scan(a, |a|, 0, Plus) == 0;
  }

  /** A list of two or more joins as its first segment, `+`, and the joined rest. */
  lemma JoinFirst(ts: seq<string>)
    requires |ts| >= 2
    ensures PlusJoin(ts) == ts[0] + "+" + PlusJoin(ts[1..])
  {
    PlusEachJoin(ts[1..]);
    assert ts[0] + ("+" + PlusJoin(ts[1..])) == ts[0] + "+" + PlusJoin(ts[1..]);
  }

  /** One pass of the induction in SplitOfJoin: the first segment comes off, the rest splits back. */
  lemma SplitStep(ts: seq<string>, budget: nat)
    requires |ts| >= 2 && budget >= |ts|
    requires ts[0] != "" && '+' !in ts[0]
    requires SplitTerms(PlusJoin(ts[1..]), budget - 1) == ts[1..]
    ensures SplitTerms(PlusJoin(ts), budget) == ts
  {
    JoinFirst(ts);
    SplitFirst(ts[0], PlusJoin(ts[1..]), budget);
    ConsTail(ts);
  }

  /** Splitting a `+`-joined list of non-empty, `+`-free segments gives the list back. */
  lemma {:induction false} SplitOfJoin(ts: seq<string>, budget: nat)
    requires |ts| >= 1 && budget >= |ts|
    requires forall k :: 0 <= k < |ts| ==> ts[k] != "" && '+' !in ts[k]
    ensures SplitTerms(PlusJoin(ts), budget) == ts
    decreases |ts|
  {
    if |ts| == 1 {
      SplitSingle(ts, budget);
    } else {
      SplitOfJoin(ts[1..], budget - 1);
      SplitStep(ts, budget);
    }
  }

  /** A single segment splits back to itself. */
  lemma SplitSingle(ts: seq<string>, budget: nat)
    requires |ts| == 1 && budget >= 1 && '+' !in ts[0]
    ensures SplitTerms(PlusJoin(ts), budget) == ts
  {
    assert PlusJoin(ts) == ts[0];
    SplitLast(ts[0], budget);
  }

  /** Every segment but the last is non-empty and holds no `+`. */
  lemma {:induction false} SplitSegments(txt: string, budget: nat)
    ensures forall k :: 0 <= k < |SplitTerms(txt, budget)| - 1 ==>
      SplitTerms(txt, budget)[k] != "" && '+' !in SplitTerms(txt, budget)[k]
    decreases budget
  {
    if budget > 0 {
      var index := Scan(txt, |txt|, 0, Plus);
      if index > 0 {
        CutAtPlus(txt, index);
        SplitSegments(txt[index + 1..], budget - 1);
      }
    }
  }

  /** The segments of `txt` are not empty as a list and join back to `txt` with `+`. */
  predicate JoinsBack(txt: string, budget: nat) {
    |SplitTerms(txt, budget)| >= 1 && PlusJoin(SplitTerms(txt, budget)) == txt
  }

  /** Joining the segments with `+` gives the text back whenever the budget exceeds the separators. */
  lemma {:induction false} SplitJoins(txt: string, budget: nat)
    requires budget > Separators(txt)
    ensures |SplitTerms(txt, budget)| >= 1 && PlusJoin(SplitTerms(txt, budget)) == txt
    decreases budget, 1
  {
    var index := Scan(txt, |txt|, 0, Plus);
    if index > 0 {
      SplitJoinsCut(txt, budget, index);
    } else {
      SplitWhole(txt, budget);
    }
  }

  /** The inductive case of SplitJoins: the rest after the leftmost `+` joins back by induction. */
  lemma {:induction false} SplitJoinsCut(txt: string, budget: nat, index: nat)
    requires budget > Separators(txt)
    requires index == Scan(txt, |txt|, 0, Plus) && index > 0
    ensures JoinsBack(txt, budget)
    decreases budget, 0
  {
    CutAtScan(txt, budget, index);
    var rest := txt[index + 1..];
    SplitJoins(rest, budget - 1);
    SplitJoinStep(txt, budget, index, rest);
  }

  /** A pass that finds no `+` after position 0 keeps the text whole, which joins back to itself. */
  lemma SplitWhole(txt: string, budget: nat)
    requires budget >= 1 && Scan(txt, |txt|, 0, Plus) <= 0
    ensures |SplitTerms(txt, budget)| >= 1 && PlusJoin(SplitTerms(txt, budget)) == txt
  {
    assert SplitTerms(txt, budget) == [txt];
    JoinOne(txt);
  }

  /** Where the scan for `+` stops after position 0, the text is cut in two around that `+`. */
  lemma CutAtScan(txt: string, budget: nat, index: nat)
    requires budget > Separators(txt)
    requires index == Scan(txt, |txt|, 0, Plus) && index > 0
    ensures index < |txt| && budget - 1 > Separators(txt[index + 1..])
  {
    CutAtPlus(txt, index);
  }

  /** The pass that cuts at the leftmost `+`, given that the rest joins back. */
  lemma SplitJoinStep(txt: string, budget: nat, index: nat, rest: string)
    requires budget >= 1 && index == Scan(txt, |txt|, 0, Plus) && 0 < index < |txt|
    requires rest == txt[index + 1..] && JoinsBack(rest, budget - 1)
    ensures JoinsBack(txt, budget)
  {
    var pre := txt[..index];
    var segs := SplitTerms(rest, budget - 1);
    CutAtPlus(txt, index);
    assert SplitTerms(txt, budget) == [pre] + segs;
    JoinFirst([pre] + segs);
    TailOfCons(pre, segs);
  }

  /** One segment joins to itself. */
  lemma JoinOne(t: string)
    ensures PlusJoin([t]) == t
  {
    assert [t][1..] == [];
    assert t + "" == t;
  }
}

=== FILE: results.dfy ===
/** The optional value and the success-or-error result shared by the parser and the numeral reader. */
module Results {

  /** A value that may be absent, as when a numeral does not read. */
  datatype Option<+T> = None | Some(value: T)

  /** Either a value or the error that stopped the computation. */
  datatype Result<+T, +E> = Success(value: T) | Failure(error: E)
}

=== FILE: roundtrip.dfy ===
/**
 * The promise of the header comment of Polynomials.cpp: the formatter writes
 * a vector "in the same form as the input", so parsing what it writes gives
 * the vector back.
 */
module RoundTrip {
  import opened Results
  import opened Numerals
  import opened Coefficients
  import opened Parser
  import opened Formatter
  import opened Written
  import opened Sequences

  predicate PlainChar(c: char) {
    IsDigit(c) || c == 'x' || c == '^'
  }

  /** Digits, `x` and `^` only: nothing the first step of the parser rewrites or counts. */
  predicate Plain(s: string) {
    forall k :: 0 <= k < |s| ==> PlainChar(s[k])
  }

  // ---- the text side ----

  lemma PlainConcat(a: string, b: string)
    requires Plain(a) && Plain(b)
    ensures Plain(a + b)
  {
    forall k | 0 <= k < |a + b|
      ensures PlainChar((a + b)[k])
    {
      if k >= |a| {
        assert (a + b)[k] == b[k - |a|];
      }
    }
  }

  /** Magnitude and suffix together are plain, and never empty for a non-zero slot. */
  lemma BodyPlain(c: int, i: nat)
    requires c != 0
    ensures Plain(Body(c, i))
    ensures |Body(c, i)| >= 1
  {
    if i >= 2 {
      assert Plain("x^");
      PlainConcat("x^", NatToString(i));
    }
    PlainConcat(Magnitude(c, i), Suffix(i));
  }

  lemma {:induction false} RewritePlain(s: string)
    requires Plain(s)
    ensures RewriteAll(s) == s
    ensures Signs(s) == 0
    decreases |s|
  {
    if |s| > 0 {
      RewritePlain(s[1..]);
      assert [s[0]] + s[1..] == s;
    }
  }

  lemma {:induction false} RewriteConcat(a: string, b: string)
    ensures RewriteAll(a + b) == RewriteAll(a) + RewriteAll(b)
    ensures Signs(a + b) == Signs(a) + Signs(b)
    decreases |a|
  {
    if |a| == 0 {
      assert a + b == b;
    } else {
      assert (a + b)[0] == a[0];
      assert (a + b)[1..] == a[1..] + b;
      RewriteConcat(a[1..], b);
    }
  }

  lemma RewriteSeparators()
    ensures RewriteAll(" + ") == "+" && Signs(" + ") == 1
    ensures RewriteAll(" - ") == "+-" && Signs(" - ") == 1
  {
  }

  /** ` + ` in front of a plain body: step 1 leaves `+` and the body. */
  lemma PlusBody(body: string)
    requires Plain(body)
    ensures RewriteAll(" + " + body) == "+" + ("" + body)
    ensures Signs(" + " + body) == 1
  {
    RewritePlain(body);
    RewriteSeparators();
    RewriteConcat(" + ", body);
    assert "" + body == body;
  }

  /** Two characters in front of a text, one at a time. */
  lemma Regroup(a: char, b: char, s: string)
    ensures [a, b] + s == [a] + ([b] + s)
  {
  }

  /** ` - ` in front of a plain body: step 1 leaves `+-` and the body. */
  lemma MinusBody(body: string)
    requires Plain(body)
    ensures RewriteAll(" - " + body) == "+" + ("-" + body)
    ensures Signs(" - " + body) == 1
  {
    RewritePlain(body);
    RewriteSeparators();
    RewriteConcat(" - ", body);
    Regroup('+', '-', body);
  }

  /** A slot below the top: its ` + ` or ` - ` becomes one `+` followed by the term text. */
  lemma LowerPiece(v: seq<int>, i: nat)
    requires i < |v| - 1 && v[i] != 0
    ensures RewriteAll(Piece(v, i)) == "+" + TermText(v[i], i)
    ensures Signs(Piece(v, i)) == 1
  {
    BodyPlain(v[i], i);
    if v[i] > 0 {
      PlusBody(Body(v[i], i));
    } else {
      MinusBody(Body(v[i], i));
    }
  }

  lemma PlusEachCons(t: string, ts: seq<string>)
    ensures PlusEach([t] + ts) == "+" + t + PlusEach(ts)
  {
    assert ([t] + ts)[1..] == ts;
  }

  /** A piece that rewrites to `+t` in front of a rest that rewrites to its joined texts. */
  lemma JoinStep(p: string, rest: string, t: string, ts: seq<string>)
    requires RewriteAll(p) == "+" + t
    requires RewriteAll(rest) == PlusEach(ts)
    ensures RewriteAll(p + rest) == PlusEach([t] + ts)
  {
    RewriteConcat(p, rest);
    PlusEachCons(t, ts);
  }

  /** Below the top slot, step 1 turns the pieces into the term texts, each behind a `+`. */
  lemma EmitBelowTop(v: seq<int>, n: nat)
    requires n < |v|
    ensures RewriteAll(Emit(v, n)) == PlusEach(Texts(v, n))
  {
    var m := 0;
    assert Texts(v, 0) == [];
    while m < n
      invariant m <= n
      invariant RewriteAll(Emit(v, m)) == PlusEach(Texts(v, m))
    {
      EmitSlot(v, m);
      m := m + 1;
    }
  }

  /** One more piece in front: a zero slot adds nothing, a non-zero slot adds `+` and its text. */
  lemma EmitSlot(v: seq<int>, m: nat)
    requires m + 1 < |v|
    requires RewriteAll(Emit(v, m)) == PlusEach(Texts(v, m))
    ensures RewriteAll(Emit(v, m + 1)) == PlusEach(Texts(v, m + 1))
  {
    SlotsStep(v, m + 1);
    if v[m] == 0 {
      assert Emit(v, m + 1) == Emit(v, m);
    } else {
      LowerPiece(v, m);
      JoinStep(Piece(v, m), Emit(v, m), TermText(v[m], m), Texts(v, m));
    }
  }

  /** A character that does not occur is counted zero times. */
  lemma {:induction false} CountAbsent(s: string, c: char)
    requires c !in s
    ensures Count(s, c) == 0
    decreases |s|
  {
    if |s| > 0 {
      assert s[1..] == s[1..] && forall k :: 0 <= k < |s[1..]| ==> s[1..][k] == s[k + 1];
      CountAbsent(s[1..], c);
    }
  }

  /** Every `+` of the joined texts is one of the joins when the texts hold none. */
  lemma {:induction false} CountPlusEach(ts: seq<string>)
    requires forall k :: 0 <= k < |ts| ==> '+' !in ts[k]
    ensures Count(PlusEach(ts), '+') == |ts|
    decreases |ts|
  {
    if |ts| > 0 {
      CountPlusEach(ts[1..]);
      CountConcat("+" + ts[0], PlusEach(ts[1..]), '+');
      CountConcat("+", ts[0], '+');
      CountAbsent(ts[0], '+');
    }
  }

  /** The formatted text is the top term's text, then the pieces below it. */
  lemma FormatTop(v: seq<int>)
    requires |v| >= 1 && v[|v| - 1] != 0
    ensures Format(v) == TermText(v[|v| - 1], |v| - 1) + Emit(v, |v| - 1)
  {
    assert Piece(v, |v| - 1) == TermText(v[|v| - 1], |v| - 1);
  }

  /** A sign in front of a plain body: no `+`, no leading space, a plain rest. */
  lemma SignedPlain(sign: string, body: string)
    requires sign == "" || sign == "-"
    requires Plain(body) && |body| >= 1
    ensures |sign + body| >= 1 && (sign + body)[0] != ' ' && (sign + body)[0] != '+'
    ensures '+' !in sign + body
    ensures Plain((sign + body)[1..])
  {
    var t := sign + body;
    if sign == "-" {
      assert t[1..] == body;
    } else {
      assert t == body;
      assert PlainChar(body[0]);
    }
    forall k | 0 <= k < |t|
      ensures t[k] != '+'
    {
      if k >= |sign| {
        assert t[k] == body[k - |sign|];
        assert PlainChar(body[k - |sign|]);
      }
    }
  }

  /** Every term text is non-empty and holds no `+`. */
  lemma TermTextWellFormed(c: int, i: nat)
    requires c != 0
    ensures |TermText(c, i)| >= 1 && TermText(c, i)[0] != ' ' && TermText(c, i)[0] != '+'
    ensures '+' !in TermText(c, i)
    ensures Plain(TermText(c, i)[1..])
  {
    BodyPlain(c, i);
    SignedPlain(SignText(c), Body(c, i));
  }

  lemma TextsWellFormed(v: seq<int>, n: nat)
    requires n <= |v|
    ensures forall k :: 0 <= k < |Texts(v, n)| ==> Texts(v, n)[k] != "" && '+' !in Texts(v, n)[k]
  {
    var s := Slots(v, n);
    forall k | 0 <= k < |Texts(v, n)|
      ensures Texts(v, n)[k] != "" && '+' !in Texts(v, n)[k]
    {
      TermTextWellFormed(v[s[k]], s[k]);
    }
  }

  /** Splitting off the first character and putting it back. */
  lemma HeadTail(a: string, w: string)
    requires |a| >= 1
    ensures [a[0]] + (a[1..] + w) == a + w
  {
    assert [a[0]] + a[1..] == a;
  }

  /** Step 1 keeps a term text whose rest is plain, and rewrites what follows it. */
  lemma NormalizeText(t: string, e: string)
    requires |t| >= 1 && t[0] != ' ' && Plain(t[1..])
    ensures Normalize(t + e).0 == t + RewriteAll(e)
  {
    var text := t + e;
    assert text[0] == t[0];
    assert text[1..] == t[1..] + e;
    RewriteConcat(t[1..], e);
    RewritePlain(t[1..]);
    HeadTail(t, RewriteAll(e));
  }

  /** A `+`-free text in front of the joined texts: one `+` per joined text. */
  lemma CountJoin(t: string, ts: seq<string>)
    requires '+' !in t
    requires forall k :: 0 <= k < |ts| ==> '+' !in ts[k]
    ensures Count(t + PlusEach(ts), '+') == |ts|
  {
    CountConcat(t, PlusEach(ts), '+');
    CountAbsent(t, '+');
    CountPlusEach(ts);
  }

  /**
   * Step 1 of the parser on a term text t followed by pieces that rewrite
   * to the joined texts ts: the texts joined with `+`, one constant each.
   */
  lemma NormalizeJoin(t: string, e: string, ts: seq<string>)
    requires |t| >= 1 && t[0] != ' ' && t[0] != '+' && '+' !in t && Plain(t[1..])
    requires RewriteAll(e) == PlusEach(ts)
    requires forall k :: 0 <= k < |ts| ==> '+' !in ts[k]
    ensures Normalize(t + e) == (PlusJoin([t] + ts), |[t] + ts|)
  {
    NormalizeText(t, e);
    CountJoin(t, ts);
    assert ([t] + ts)[1..] == ts;
    assert (t + e)[0] == t[0];
  }

  /** After step 1, the formatted text is the term texts joined with `+`, and `constants` counts them. */
  lemma NormalizeFormat(v: seq<int>)
    requires |v| >= 1 && v[|v| - 1] != 0
    ensures |Format(v)| >= 1
    ensures Normalize(Format(v)) == (PlusJoin(Texts(v, |v|)), |Texts(v, |v|)|)
  {
    var top := |v| - 1;
    var t := TermText(v[top], top);
    var ts := Texts(v, top);
    FormatTop(v);
    TermTextWellFormed(v[top], top);
    EmitBelowTop(v, top);
    TextsWellFormed(v, top);
    NormalizeJoin(t, Emit(v, top), ts);
    SlotsStep(v, |v|);
  }

  // ---- the term side ----

  /** The scan stops at position |pre| when nothing before it matches and that position does. */
  lemma ScanAt(s: string, n: nat, acc: int, m: Mark)
    requires n < |s| && Marks(m, s[n])
    requires forall k :: 0 <= k < n ==> !Marks(m, s[k])
    ensures Scan(s, |s|, acc, m) == n
  {
  }

  lemma ScanNone(s: string, acc: int, m: Mark)
    requires forall k :: 0 <= k < |s| ==> !Marks(m, s[k])
    ensures Scan(s, |s|, acc, m) == acc
  {
  }

  /** The signed digits of a non-zero coefficient are `to_string` of it. */
  lemma SignedDigits(c: int)
    requires c != 0
    ensures SignText(c) + NatToString(Abs(c)) == IntToString(c)
  {
  }

  /** No `x`, `X` or `^`: nothing the term reader looks for. */
  predicate Unmarked(s: string) {
    forall k :: 0 <= k < |s| ==> !Marks(Variable, s[k]) && !Marks(Caret, s[k])
  }

  /** Signed digits are unmarked. */
  lemma SignedUnmarked(s: string)
    requires forall k :: 0 <= k < |s| ==> IsDigit(s[k]) || s[k] == '-'
    ensures Unmarked(s)
  {
  }

  /** A constant term: its text is `to_string` of the coefficient and reads back as it. */
  lemma ReadConstText(c: int)
    requires c != 0
    ensures ReadTerm(TermText(c, 0)) == Success(Const(c))
  {
    SignedDigits(c);
    var s := IntToString(c);
    assert TermText(c, 0) == s;
    SignedUnmarked(s);
    ScanNone(s, -1, Variable);
    ReadIntToString(c);
  }

  /**
   * An x-term text: an unmarked coefficient, `x`, then nothing or `^` and
   * an unmarked exponent. It reads back as the power those two texts give.
   */
  lemma ReadPowerText(s: string, head: string, rest: string, c: int, e: nat)
    requires s == head + "x" + rest
    requires Unmarked(head) && ReadInt(UnitDefault(head)) == Some(c)
    requires || (rest == "" && e == 1)
             || (|rest| >= 1 && rest[0] == '^' && Unmarked(rest[1..]) && ReadInt(UnitDefault(rest[1..])) == Some(e))
    ensures ReadTerm(s) == Success(Power(c, e))
  {
    MarkX(s, head, rest);
    if rest == "" {
      MarkNoCaret(s, head);
      assert ReadInt(UnitDefault("")) == Some(1);
    } else {
      MarkCaret(s, head, rest);
    }
  }

  /** The reader's scan for `x` stops right after an unmarked head, and cuts the text around it. */
  lemma MarkX(s: string, head: string, rest: string)
    requires s == head + "x" + rest && Unmarked(head)
    ensures Scan(s, |s|, -1, Variable) == |head|
    ensures s[..|head|] == head && s[|head| + 1..] == rest
  {
    var ix := |head|;
    assert s[ix] == 'x';
    assert forall k :: 0 <= k < ix ==> s[k] == head[k];
    ScanAt(s, ix, -1, Variable);
  }

  /** With nothing after the `x`, the scan for `^` finds none. */
  lemma MarkNoCaret(s: string, head: string)
    requires s == head + "x" && Unmarked(head)
    ensures Scan(s, |s|, -1, Caret) < 0
  {
    assert forall k :: 0 <= k < |s| ==> !Marks(Caret, s[k]);
    ScanNone(s, -1, Caret);
  }

  /** A `^` right after the `x` is where the scan for `^` stops. */
  lemma MarkCaret(s: string, head: string, rest: string)
    requires s == head + "x" + rest && Unmarked(head) && |rest| >= 1 && rest[0] == '^'
    ensures Scan(s, |s|, -1, Caret) == |head| + 1
    ensures s[|head| + 2..] == rest[1..]
  {
    var ix := |head|;
    assert s[ix + 1] == '^';
    assert forall k :: 0 <= k <= ix ==> !Marks(Caret, s[k]);
    ScanAt(s, ix + 1, -1, Caret);
  }

  /** The sign and magnitude of a non-zero x-term read back as its coefficient. */
  lemma CoefficientText(c: int, i: nat)
    requires c != 0 && i >= 1
    ensures Unmarked(SignText(c) + Magnitude(c, i))
    ensures ReadInt(UnitDefault(SignText(c) + Magnitude(c, i))) == Some(c)
  {
    SignedDigits(c);
    ReadIntToString(c);
    SignedUnmarked(IntToString(c));
    if Abs(c) == 1 {
      UnitCoefficient(c, i);
    } else {
      assert Magnitude(c, i) == NatToString(Abs(c));
    }
  }

  /** A unit coefficient of a power of x is written as its sign alone and read back through the default. */
  lemma UnitCoefficient(c: int, i: nat)
    requires Abs(c) == 1 && i >= 1
    ensures SignText(c) + Magnitude(c, i) == SignText(c)
    ensures UnitDefault(SignText(c)) == IntToString(c)
  {
    assert NatToString(1) == "1";
  }

  /** The exponent digits of x^i read back as i. */
  lemma ExponentText(i: nat)
    requires i >= 2
    ensures Unmarked(NatToString(i))
    ensures ReadInt(UnitDefault(NatToString(i))) == Some(i)
  {
    assert NatToString(i) == IntToString(i);
    SignedUnmarked(NatToString(i));
    ReadIntToString(i);
  }

  /** An x-term text is its sign and magnitude, then `x`, then what follows the `x` in its suffix. */
  lemma TextShape(c: int, i: nat, rest: string)
    requires i >= 1 && Suffix(i) == "x" + rest
    ensures TermText(c, i) == (SignText(c) + Magnitude(c, i)) + "x" + rest
  {
    AppendAssoc(SignText(c), Magnitude(c, i), Suffix(i));
  }

  /** The text of an x^1 term reads back as that term. */
  lemma ReadLinearText(c: int)
    requires c != 0
    ensures ReadTerm(TermText(c, 1)) == Success(Power(c, 1))
  {
    var head := SignText(c) + Magnitude(c, 1);
    CoefficientText(c, 1);
    TextShape(c, 1, "");
    ReadPowerText(TermText(c, 1), head, "", c, 1);
  }

  /** The text of an x^i term with i >= 2 reads back as that term. */
  lemma ReadHigherText(c: int, i: nat)
    requires c != 0 && i >= 2
    ensures ReadTerm(TermText(c, i)) == Success(Power(c, i))
  {
    var head := SignText(c) + Magnitude(c, i);
    CoefficientText(c, i);
    ExponentText(i);
    var rest := "^" + NatToString(i);
    TailOfCons('^', NatToString(i));
    TextShape(c, i, rest);
    ReadPowerText(TermText(c, i), head, rest, c, i);
  }

  /** The parser reads each term text back as the term of its slot. */
  lemma ReadTermText(c: int, i: nat)
    requires c != 0
    ensures ReadTerm(TermText(c, i)) == Success(TermOf(c, i))
  {
    if i == 0 {
      ReadConstText(c);
    } else if i == 1 {
      ReadLinearText(c);
    } else {
      ReadHigherText(c, i);
    }
  }

  /** Segments that each read as their term parse to the fold of those terms. */
  lemma {:induction false} ParseReadable(segs: seq<string>, ts: seq<Term>, poly: seq<int>)
    requires |segs| == |ts|
    requires forall k :: 0 <= k < |segs| ==> ReadTerm(segs[k]) == Success(ts[k])
    ensures ParseSegs(segs, poly) == Success(FoldTerms(poly, ts))
    decreases |segs|
  {
    if |segs| > 0 {
      assert forall k :: 0 <= k < |segs| - 1 ==> segs[1..][k] == segs[k + 1] && ts[1..][k] == ts[k + 1];
      ParseReadable(segs[1..], ts[1..], Place(poly, ts[0]));
    }
  }

  /** Each term text reads as the term of its slot. */
  lemma TextsRead(v: seq<int>, n: nat)
    requires n <= |v|
    ensures forall k :: 0 <= k < |Texts(v, n)| ==> ReadTerm(Texts(v, n)[k]) == Success(Terms(v, n)[k])
  {
    var s := Slots(v, n);
    forall k | 0 <= k < |Texts(v, n)|
      ensures ReadTerm(Texts(v, n)[k]) == Success(Terms(v, n)[k])
    {
      ReadTermText(v[s[k]], s[k]);
    }
  }

  /** The term of each slot below n has that slot as its degree. */
  lemma TermsBelow(v: seq<int>, n: nat)
    requires n <= |v|
    ensures forall j :: 0 <= j < |Terms(v, n)| ==> Degree(Terms(v, n)[j]) < n
  {
    var s := Slots(v, n);
    forall j | 0 <= j < |Terms(v, n)|
      ensures Degree(Terms(v, n)[j]) < n
    {
      assert Terms(v, n)[j] == TermOf(v[s[j]], s[j]);
    }
  }

  /** A term in front adds its coefficient at its own degree. */
  lemma SumAtCons(t: Term, ts: seq<Term>, k: int)
    ensures SumAt([t] + ts, k) == (if Degree(t) == k then t.coef else 0) + SumAt(ts, k)
  {
    assert ([t] + ts)[0] == t;
    assert ([t] + ts)[1..] == ts;
  }

  /** Summed by degree, the terms of the slots below n give those slots back. */
  lemma {:induction false} TermsSum(v: seq<int>, n: nat, k: int)
    requires n <= |v|
    ensures SumAt(Terms(v, n), k) == (if 0 <= k < n then v[k] else 0)
  {
    if n == 0 {
      assert |Terms(v, 0)| == 0;
    } else {
      TermsSum(v, n - 1, k);
      SumSlot(v, n - 1, k);
    }
  }

  /** One more slot adds its value at its own index and nothing elsewhere. */
  lemma SumSlot(v: seq<int>, m: nat, k: int)
    requires m < |v|
    requires SumAt(Terms(v, m), k) == (if 0 <= k < m then v[k] else 0)
    ensures SumAt(Terms(v, m + 1), k) == (if 0 <= k < m + 1 then v[k] else 0)
  {
    if v[m] != 0 {
      TermsFront(v, m + 1);
      SumAtCons(TermOf(v[m], m), Terms(v, m), k);
    } else {
      SlotsSkip(v, m + 1);
    }
  }

  /** Steps 1 and 2 of the parser cut the formatted text into exactly the term texts. */
  lemma SplitFormat(v: seq<int>)
    requires |v| >= 1 && v[|v| - 1] != 0
    ensures Parse(Format(v)) == ParseSegs(Texts(v, |v|), [])
  {
    var texts := Texts(v, |v|);
    NormalizeFormat(v);
    TextsWellFormed(v, |v|);
    SplitOfJoin(texts, |texts|);
  }

  /** Folding the terms of all slots into the empty vector rebuilds the vector. */
  lemma FoldSlots(v: seq<int>)
    requires |v| >= 1 && v[|v| - 1] != 0
    ensures FoldTerms([], Terms(v, |v|)) == v
  {
    var top := |v| - 1;
    var ts := Terms(v, |v|);
    TermsFront(v, |v|);
    assert ts[0] == TermOf(v[top], top);
    TermsBelow(v, |v|);
    DescendingTerms(ts);
    forall k | 0 <= k < |v|
      ensures FoldTerms([], ts)[k] == v[k]
    {
      TermsSum(v, |v|, k);
    }
  }

  /** The zero polynomial is written "0" and read back as [0]. */
  lemma ZeroRoundTrip()
    ensures Parse(Format([0])) == Success([0])
  {
    assert Format([0]) == "0";
    assert "0"[0] == '0' && "0"[1..] == "";
    assert RewriteAll("") == "" && Signs("") == 0;
    assert ["0"[0]] + RewriteAll("0"[1..]) == "0";
    assert Normalize("0") == ("0", 1);
    ScanNone("0", 0, Plus);
    assert SplitTerms("0", 1) == ["0"];
    ScanNone("0", -1, Variable);
    assert ReadInt("0") == Some(0);
    assert ReadTerm("0") == Success(Const(0));
    var p := Place([], Const(0));
    assert |p| == 1 && p[0] == 0;
    assert p == [0];
    assert ["0"][1..] == [];
    assert ParseSegs(["0"], []) == ParseSegs([], [0]);
  }

  /**
   * Parsing what the formatter writes gives the vector back, for every
   * vector whose top slot is non-zero and for the zero polynomial [0].
   */
  lemma FormatThenParse(v: seq<int>)
    requires |v| >= 1
    requires v[|v| - 1] != 0 || v == [0]
    ensures Parse(Format(v)) == Success(v)
  {
    if v == [0] {
      ZeroRoundTrip();
    } else {
      SplitFormat(v);
      TextsRead(v, |v|);
      ParseReadable(Texts(v, |v|), Terms(v, |v|), []);
      FoldSlots(v);
    }
  }
}

=== FILE: scenarios.dfy ===
/**
 * Concrete inputs from the program's own header comment and from the
 * corners of the parser: the general laws applied to single cases.
 */
module Scenarios {
  import opened Results
  import opened Numerals
  import opened Parser
  import opened Formatter
  import opened RoundTrip

  /** The header's example vector: 3x^4 + x^2 - 2x + 1 stored lowest power first. */
  const Header: seq<int> := [1, -2, 1, 0, 3]

  /** The header's example: 3x^4 + x^2 - 2x + 1 is stored as [1, -2, 1, 0, 3]. */
  lemma HeaderExampleFormat()
    ensures Format(Header) == "3x^4 + x^2 - 2x + 1"
  {
    HeaderTop();
    HeaderLower();
    HeaderEmit();
    HeaderText();
  }

  lemma HeaderText()
    ensures "3x^4" + ("" + (" + x^2" + (" - 2x" + (" + 1" + "")))) == "3x^4 + x^2 - 2x + 1"
  {
  }

  /** The formatter's text is the pieces from the top slot down. */
  lemma HeaderEmit()
    ensures Format(Header) == Piece(Header, 4) + (Piece(Header, 3) + (Piece(Header, 2) + (Piece(Header, 1) + (Piece(Header, 0) + ""))))
  {
    var v := Header;
    assert Emit(v, 1) == Piece(v, 0) + "";
    assert Emit(v, 2) == Piece(v, 1) + Emit(v, 1);
    assert Emit(v, 3) == Piece(v, 2) + Emit(v, 2);
    assert Emit(v, 4) == Piece(v, 3) + Emit(v, 3);
    assert Emit(v, 5) == Piece(v, 4) + Emit(v, 4);
  }

  /** The top slot is written without a sign; the zero slot below it is skipped. */
  lemma HeaderTop()
    ensures Piece(Header, 4) == "3x^4" && Piece(Header, 3) == ""
  {
    assert NatToString(3) == "3" && NatToString(4) == "4";
  }

  /** The lower slots are joined by ` + ` and ` - `, with unit magnitudes left out. */
  lemma HeaderLower()
    ensures Piece(Header, 2) == " + x^2"
    ensures Piece(Header, 1) == " - 2x"
    ensures Piece(Header, 0) == " + 1"
  {
    assert NatToString(1) == "1" && NatToString(2) == "2";
  }

  /** The header's example text parses to its vector. */
  lemma HeaderExampleParse()
    ensures Parse("3x^4 + x^2 - 2x + 1") == Success([1, -2, 1, 0, 3])
  {
    HeaderExampleFormat();
    FormatThenParse(Header);
  }

  /** An empty coefficient and an empty exponent both read as 1. */
  lemma BareX()
    ensures ReadTerm("x") == Success(Power(1, 1))
  {
    ReadOne();
    ReadPowerText("x", "", "", 1, 1);
  }

  /** A lone minus reads as -1, and `X` marks the variable as `x` does. */
  lemma MinusCapitalX()
    ensures ReadTerm("-X") == Success(Power(-1, 1))
  {
    var s := "-X";
    assert Scan(s, 2, -1, Variable) == 1;
    assert Scan(s, 2, -1, Caret) == -1;
    assert s[..1] == "-" && s[2..] == "";
    assert ReadInt("-1") == Some(-1);
  }

  /** A `^` with nothing after it is an exponent of 1. */
  lemma EmptyExponent()
    ensures ReadTerm("x^") == Success(Power(1, 1))
  {
    var s := "x^";
    assert Scan(s, 2, -1, Variable) == 0;
    assert Scan(s, 2, -1, Caret) == 1;
    assert s[..0] == "" && s[2..] == "";
    ReadOne();
  }

  /**
   * A minus after `^` is split off like any other: `x^-2` is read as the
   * terms `x^` and `-2`, that is x - 2, and never as a negative exponent.
   */
  lemma NegativeExponentSplits()
    ensures Parse("x^-2") == Success([-2, 1])
  {
    NegativeExponentCut();
    NegativeExponentSegments();
    NegativeExponentFold();
  }

  /** Step 1 opens the minus after `^` as `+-`, counting two terms. */
  lemma NegativeExponentCut()
    ensures Normalize("x^-2") == ("x^+-2", 2)
  {
    NegativeExponentRewrite();
    var text := "x^-2";
    assert text[1..] == "^-2";
    assert text[0] == 'x' && [text[0]] + "^+-2" == "x^+-2";
  }

  /** The minus after position 0 becomes `+-`, and it is the one sign counted. */
  lemma NegativeExponentRewrite()
    ensures RewriteAll("^-2") == "^+-2" && Signs("^-2") == 1
  {
    assert "^-2"[1..] == "-2" && "-2"[1..] == "2" && "2"[1..] == "";
    assert RewriteAll("2") == "2" && Signs("2") == 0;
    assert RewriteAll("-2") == "+-" + "2";
  }

  /** Step 2 cuts at the `+` that step 1 put in front of the minus. */
  lemma NegativeExponentSegments()
    ensures SplitTerms("x^+-2", 2) == ["x^", "-2"]
  {
    assert Scan("x^+-2", 5, 0, Plus) == 2;
    assert Scan("-2", 2, 0, Plus) == 0;
    assert "x^+-2"[..2] == "x^" && "x^+-2"[3..] == "-2";
  }

  /** Steps 3 and 4: the x lands in slot 1 and the -2 adds into slot 0. */
  lemma NegativeExponentFold()
    ensures ParseSegs(["x^", "-2"], []) == Success([-2, 1])
  {
    EmptyExponent();
    assert ReadTerm("-2") == Success(Const(-2)) by {
      assert Scan("-2", 2, -1, Variable) == -1;
    }
    assert Place([], Power(1, 1)) == [0, 1];
    assert Place([0, 1], Const(-2)) == [-2, 1];
    assert ["x^", "-2"][1..] == ["-2"];
    assert ParseSegs(["-2"], [0, 1]) == ParseSegs([], [-2, 1]);
  }

  lemma ReadOne()
    ensures ReadInt("1") == Some(1)
  {
    assert IntToString(1) == "1";
    ReadIntToString(1);
  }

  /** A constant term reads as a constant and lands in slot 0. */
  lemma ConstantTerm()
    ensures ReadTerm("7") == Success(Const(7))
    ensures Place([1, 2], Const(7)) == [8, 2]
  {
  }
}

=== FILE: sequences.dfy ===
/**
 * Small facts about sequences, each its own lemma so that a proof can
 * call the one step it needs.
 */
module Sequences {
  /** Putting the head back in front of the tail. */
  lemma ConsTail<T>(s: seq<T>)
    requires |s| >= 1
    ensures [s[0]] + s[1..] == s
  {
  }

  /** The head and the tail of a sequence with one element in front. */
  lemma TailOfCons<T>(x: T, s: seq<T>)
    ensures ([x] + s)[0] == x && ([x] + s)[1..] == s
  {
  }

  /** The empty sequence joins on either side without changing anything. */
  lemma EmptyJoins<T>(s: seq<T>)
    ensures s + [] == s && [] + s == s
  {
  }

  /** Appending is associative. */
  lemma AppendAssoc<T>(a: seq<T>, b: seq<T>, c: seq<T>)
    ensures (a + b) + c == a + (b + c)
  {
  }

  /** A sequence that starts with x and then lists u, one place later, is [x] + u. */
  lemma ConsOf<T>(t: seq<T>, x: T, u: seq<T>)
    requires |t| == |u| + 1 && t[0] == x
    requires forall k :: 1 <= k < |t| ==> t[k] == u[k - 1]
    ensures t == [x] + u
  {
  }
}

=== FILE: written.dfy ===
/**
 * What the formatter writes for a vector, slot by slot: the text of each
 * non-zero slot and the term the parser should read from it.
 */
module Written {
  import opened Parser
  import opened Formatter
  import opened Sequences

  /** The sign of a term as the parser sees it: a minus for a negative coefficient. */
  function SignText(c: int): string {
    if c < 0 then "-" else ""
  }

  /** The text of a non-zero slot once step 1 of the parser has run: sign, magnitude, suffix. */
  function TermText(c: int, i: nat): string {
    SignText(c) + Body(c, i)
  }

  /** The term the parser should read for slot i holding c. */
  function TermOf(c: int, i: nat): Term {
    if i == 0 then Const(c) else Power(c, i)
  }

  /** The indices of the non-zero slots below n, highest first: the slots the formatter writes. */
  function Slots(v: seq<int>, n: nat): (r: seq<nat>)
    requires n <= |v|
    ensures forall k :: 0 <= k < |r| ==> r[k] < n && v[r[k]] != 0
  {
    if n == 0 then [] else (if v[n - 1] != 0 then [n - 1] else []) + Slots(v, n - 1)
  }

  /** The term texts of the non-zero slots below n, highest first. */
  function Texts(v: seq<int>, n: nat): (r: seq<string>)
    requires n <= |v|
    ensures |r| == |Slots(v, n)|
  {
    var s := Slots(v, n);
    seq(|s|, k requires 0 <= k < |s| => TermText(v[s[k]], s[k]))
  }

  /** The terms of the non-zero slots below n, highest first. */
  function Terms(v: seq<int>, n: nat): (r: seq<Term>)
    requires n <= |v|
    ensures |r| == |Slots(v, n)|
  {
    var s := Slots(v, n);
    seq(|s|, k requires 0 <= k < |s| => TermOf(v[s[k]], s[k]))
  }

  /** A non-zero slot n - 1 is the first slot written below n. */
  lemma SlotsFront(v: seq<int>, n: nat)
    requires 0 < n <= |v| && v[n - 1] != 0
    ensures Slots(v, n) == [n - 1] + Slots(v, n - 1)
  {
  }

  /** A non-zero slot puts its text in front of the texts of the slots below it. */
  lemma TextsFront(v: seq<int>, n: nat)
    requires 0 < n <= |v| && v[n - 1] != 0
    ensures Texts(v, n) == [TermText(v[n - 1], n - 1)] + Texts(v, n - 1)
  {
    var s, s' := Slots(v, n), Slots(v, n - 1);
    SlotsFront(v, n);
    var t, u := Texts(v, n), Texts(v, n - 1);
    forall k | 1 <= k < |t| ensures t[k] == u[k - 1] {
      assert s[k] == s'[k - 1];
    }
    ConsOf(t, TermText(v[n - 1], n - 1), u);
  }

  /** A non-zero slot puts its term in front of the terms of the slots below it. */
  lemma TermsFront(v: seq<int>, n: nat)
    requires 0 < n <= |v| && v[n - 1] != 0
    ensures Terms(v, n) == [TermOf(v[n - 1], n - 1)] + Terms(v, n - 1)
  {
    var s, s' := Slots(v, n), Slots(v, n - 1);
    SlotsFront(v, n);
    var t, u := Terms(v, n), Terms(v, n - 1);
    forall k | 1 <= k < |t| ensures t[k] == u[k - 1] {
      assert s[k] == s'[k - 1];
    }
    ConsOf(t, TermOf(v[n - 1], n - 1), u);
  }

  /** A zero slot is not written: the texts and terms below n are those below n - 1. */
  lemma SlotsSkip(v: seq<int>, n: nat)
    requires 0 < n <= |v| && v[n - 1] == 0
    ensures Texts(v, n) == Texts(v, n - 1) && Terms(v, n) == Terms(v, n - 1)
  {
    assert Slots(v, n) == Slots(v, n - 1);
  }

  /** One more slot: a non-zero slot puts its text and term in front, a zero slot changes nothing. */
  lemma SlotsStep(v: seq<int>, n: nat)
    requires 0 < n <= |v|
    ensures v[n - 1] == 0 ==> Texts(v, n) == Texts(v, n - 1) && Terms(v, n) == Terms(v, n - 1)
    ensures v[n - 1] != 0 ==> Texts(v, n) == [TermText(v[n - 1], n - 1)] + Texts(v, n - 1)
    ensures v[n - 1] != 0 ==> Terms(v, n) == [TermOf(v[n - 1], n - 1)] + Terms(v, n - 1)
  {
    if v[n - 1] != 0 {
      TextsFront(v, n);
      TermsFront(v, n);
    } else {
      SlotsSkip(v, n);
    }
  }
}
